=== FILE: README.md ===
# docforge GitHub host, modelled in Dafny

This project models the part of docforge that resolves and reads documentation stored on
GitHub. It covers two Go files.

- `pkg/readers/link/resource_link.go` turns a URL into a `Resource`: host, owner,
  repository, type, ref and path. It tries four regular expressions in priority order:
  raw-prefixed, raw.githubusercontent.com, absolute link, relative. It also prints a
  resource back as its resource, repository and raw URLs.
- `pkg/readers/repositoryhosts/githubhttpcache/github_http_cache.go` is the GitHub
  repository host `GHC`. Its operations:
  - `Read` reads a blob through one of four routes: a local mapping, the file SHA cache,
    a directory listing plus blob download, or the contents API.
  - `FileTreeFromURL` lists a tree.
  - `ToAbsLink` makes a relative link absolute.
  - `ReadGitInfo` derives dates, author and contributors from the commit list.
  - `Accept` and `GetRawFormatLink` are pure helpers.

  Along the way it fills two caches: the file SHA cache and the default-branch memo.

## Modules

- `Link` models the URL matchers.
  - Go's leftmost-first `FindStringSubmatch` is a search over start positions (`FindFrom`).
  - Each pattern is matched on the text that follows its start position (`MatchText`).
  - The greedy `[^/]+` group becomes the maximal run of non-slash characters.
  - The unescaped dots in `raw.githubusercontent.com` are wildcards, as in the regular expression.
- `GitInfo` models `transform`, `isInternalCommit` and `getCommitAuthor`, imperatively,
  over an array of commits:
  - deleting the internal commits in place;
  - sorting newest first;
  - collecting contributors in a loop.

  Each of these is proved against a function on sequences.
- `GitHubApi` holds the records and the outside world:
  - The GitHub client is an `Api` value: one reply function per endpoint.
  - The file system and Go's `url` and `filepath` libraries are a `Platform` value.
  - Every call made to GitHub is recorded as a `Call`.
- `GitHubSpec` gives each host operation as a pure function. The function returns the
  result, the calls made and the caches afterwards. The lemmas about caching, typing and
  tree extraction are stated on these functions.
- `GitHubHttpCache` holds the class `GHC`.
  - Its fields are the setup, `filesCache`, `defBranches` and the call log `calls`.
  - Its methods update the fields in place, with loops where the Go code loops.
  - Each method's postcondition ties its result and new state to the `GitHubSpec`
    function of that operation.
  - The class invariant `Valid` says that every memoised default branch is the branch
    GitHub named for that repository.

Behaviour of the code that the model keeps:

- A resource type is whatever the URL segment says; it is not checked against `blob`,
  `tree` or `raw`.
- The commit sort is `sort.Slice`, which is not stable. Only "newest first" and "a
  permutation of the kept commits" are promised; no tie order is.
- In `ToAbsLink`, only a link that starts with "http" is resolved and replaced by its
  resource's URL (github_http_cache.go:176-182). Any other absolute link, such as
  "mailto:x", is returned unchanged by the `IsAbs` branch.
- `GetRawURL` always prints the raw form, whatever the type, although its doc comment
  (resource_link.go:98) says it does so only for a blob.

## Model

| member | source | states |
|---|---|---|
| Link.NewResourceFromURL | pkg/readers/link/resource_link.go:40-86 | the result is the zero Resource or keeps the URL; its path never holds '?' or '#'; it is the zero Resource exactly when the URL text is only '?' and '#' characters |
| Link.NewResource | pkg/readers/link/resource_link.go:31-38 | a url.Parse failure is returned as the error; otherwise the resource of the parsed URL |
| Link.ResourceURLRoundTrip | pkg/readers/link/resource_link.go:88-91 | parsing GetResourceURL(r), followed by any query or fragment, gives back every field of r, when the fields are non-empty slash-free segments without ':', the owner is not "raw" and the host does not fit the start of the githubusercontent host ("raw", "raw.githubusercontent" or "raw.githubusercontent.com" with any character in place of a dot) |
| Link.RawURLRoundTrip | pkg/readers/link/resource_link.go:98-101 | parsing GetRawURL(r), followed by any query or fragment, gives back r with the type "raw", under the same conditions on the fields and the host as the resource URL round trip |
| Link.RepoURLPrefix | pkg/readers/link/resource_link.go:88-101 | the repository URL https://Host/Owner/Repo starts both the resource URL, followed by /Type/Ref/Path, and the raw URL, followed by /raw/Ref/Path |
| Link.RawPrefixedURL | pkg/readers/link/resource_link.go:25 | `https://host/raw/owner/repo/ref/path` parses as a raw resource of that host, owner, repository, ref and path |
| Link.UserContentURL | pkg/readers/link/resource_link.go:27 | a raw.githubusercontent.com URL parses as a raw resource on host github.com |
| Link.RelativeURL | pkg/readers/link/resource_link.go:28-83 | a URL without "https://" is a relative resource with only the path set: leading '?' and '#' characters are skipped, and the path is the text after them up to the next '?' or '#' (so "#frag" has the path "frag") |
| Link.OnlyMarksNoMatch | pkg/readers/link/resource_link.go:42-85 | a text made only of '?' and '#' matches none of the four patterns |
| Link.RelativeFindsUnmarked | pkg/readers/link/resource_link.go:28 | the relative pattern matches any text that holds a character other than '?' and '#' |
| GoStrings.Contains | pkg/readers/repositoryhosts/githubhttpcache/github_http_cache.go:583 | strings.Contains holds exactly when the substring occurs at some index |
| GoStrings.TextBefore | pkg/readers/repositoryhosts/githubhttpcache/github_http_cache.go:554 | the first element of strings.Split: a prefix with no separator in it, ending at the first separator or at the end |
| GoStrings.Ext | pkg/readers/repositoryhosts/githubhttpcache/github_http_cache.go:434 | path.Ext is empty exactly when the last element has no dot; otherwise it starts with '.' and is a suffix of the path |
| GoStrings.Base | pkg/readers/repositoryhosts/githubhttpcache/github_http_cache.go:390 | path.Base is never empty and holds a slash only when it is "/" |
| GoStrings.BaseLastElement | pkg/readers/repositoryhosts/githubhttpcache/github_http_cache.go:390 | "." for the empty path, "/" for slashes only, otherwise the slash-free tail of the path without trailing slashes, starting right after a slash or at the start |
| GoStrings.DirParent | pkg/readers/repositoryhosts/githubhttpcache/github_http_cache.go:389 | path.Dir: "." for a path without a slash; otherwise the path before its last element with the trailing slashes removed, or "/" when only slashes precede the last element |
| GitInfo.CommitAuthor | pkg/readers/repositoryhosts/githubhttpcache/github_http_cache.go:588-604 | none exactly when the commit has neither author nor committer; with a platform user and a commit author, it is the platform user with the commit author's name and email; with only a commit author, a user of that name and email and no type; else a user from the committer; a user type comes only from a platform user |
| GitInfo.KeptMembers | pkg/readers/repositoryhosts/githubhttpcache/github_http_cache.go:543 | a commit survives DeleteFunc exactly when it was listed and is not internal |
| GitInfo.DeleteInternal | pkg/readers/repositoryhosts/githubhttpcache/github_http_cache.go:543 | the array's prefix becomes the non-internal commits, in their order |
| GitInfo.NewestIn | pkg/readers/repositoryhosts/githubhttpcache/github_http_cache.go:547-549 | the index of a newest commit of the range |
| GitInfo.SortNewestFirst | pkg/readers/repositoryhosts/githubhttpcache/github_http_cache.go:547-549 | the commits end up newest first and are a permutation of the ones before |
| GitInfo.ContributorsWellFormed | pkg/readers/repositoryhosts/githubhttpcache/github_http_cache.go:563-576 | every contributor is of type "User", differs from the author's email, and no email appears twice |
| GitInfo.ContributorsFromCommits | pkg/readers/repositoryhosts/githubhttpcache/github_http_cache.go:563-576 | every contributor is the commit author of one of the commits |
| GitInfo.ContributorsComplete | pkg/readers/repositoryhosts/githubhttpcache/github_http_cache.go:563-576 | the email of every qualifying commit author is among the contributors' emails |
| GitInfo.CollectContributors | pkg/readers/repositoryhosts/githubhttpcache/github_http_cache.go:563-576 | the loop returns the contributors of the first n commits |
| GitInfo.InfoOf | pkg/readers/repositoryhosts/githubhttpcache/github_http_cache.go:544-576 | no info exactly when no commit is kept; the web URL is a prefix of the newest commit's URL; contributors exist exactly when two or more commits are kept |
| GitInfo.Transform | pkg/readers/repositoryhosts/githubhttpcache/github_http_cache.go:537-577 | nil commits give nil; otherwise the info of a newest-first permutation of the non-internal commits |
| GitInfo.InfoDates | pkg/readers/repositoryhosts/githubhttpcache/github_http_cache.go:547-556 | info exists exactly when some commit is not internal; every kept commit's date lies between the publish date and the last-modified date, both are dates of kept commits, and the author is the commit author of a kept commit with the publish date |
| GitHubSpec.Listed | pkg/readers/repositoryhosts/githubhttpcache/github_http_cache.go:230-234 | the loop over accepted hosts finds h exactly when h is listed |
| GitHubSpec.Accept | pkg/readers/repositoryhosts/githubhttpcache/github_http_cache.go:225-236 | true exactly when the URI parses, its scheme is https and its host is accepted |
| GitHubSpec.LocalMapping | pkg/readers/repositoryhosts/githubhttpcache/github_http_cache.go:353-360 | the directory under the lowercased repository URL, else under that key with '/', else "" when neither key is mapped; a non-empty result is a mapped directory |
| GitHubSpec.LocalMappingIgnoresCase | pkg/readers/repositoryhosts/githubhttpcache/github_http_cache.go:354 | two resources whose repository URLs differ only in ASCII case share a mapping |
| GitHubSpec.GetFileSHA | pkg/readers/repositoryhosts/githubhttpcache/github_http_cache.go:529-534 | a SHA is found exactly when the key is cached, and it is the cached one |
| GitHubSpec.GetRawFormatLink | pkg/readers/repositoryhosts/githubhttpcache/github_http_cache.go:324-333 | a parse failure is the error; a parsed link is the raw URL of its resource when that resource is absolute, else the link unchanged |
| GitHubSpec.RawFormatOfResourceURL | pkg/readers/repositoryhosts/githubhttpcache/github_http_cache.go:324-333 | the resource URL of r becomes the raw URL of r |
| GitHubSpec.RawFormatIdempotent | pkg/readers/repositoryhosts/githubhttpcache/github_http_cache.go:324-333 | the raw form of a raw link is the same link |
| GitHubSpec.DefaultBranch | pkg/readers/repositoryhosts/githubhttpcache/github_http_cache.go:513-527 | a memoised branch makes no call; otherwise one repository call, whose error is passed on as the result with the memo unchanged, and whose branch is otherwise the result and is memoised |
| GitHubSpec.DefaultBranchMemoised | pkg/readers/repositoryhosts/githubhttpcache/github_http_cache.go:516-519 | after a success, asking again makes no call and gives the same branch |
| GitHubSpec.DefaultBranchKeepsMemo | pkg/readers/repositoryhosts/githubhttpcache/github_http_cache.go:524-525 | the memo only grows and no memoised branch changes |
| GitHubSpec.BranchKeyUnique | pkg/readers/repositoryhosts/githubhttpcache/github_http_cache.go:516 | an "owner/repo" key of slash-free names is made by no other owner and repository |
| GitHubSpec.DefaultBranchFaithful | pkg/readers/repositoryhosts/githubhttpcache/github_http_cache.go:513-527 | a faithful memo stays faithful, and the branch given for a slash-free owner and repository is GitHub's |
| GitHubSpec.Resolve | pkg/readers/repositoryhosts/githubhttpcache/github_http_cache.go:496-511 | only the ref of the parsed resource can change, and only a DEFAULT_BRANCH ref, to the default branch; other resources make no call |
| GitHubSpec.ReadLocalFile | pkg/readers/repositoryhosts/githubhttpcache/github_http_cache.go:363-373 | reads the file at the mapped directory joined with the path: its bytes on success, NotFound exactly when the file does not exist, any other read error a local read failure naming the file |
| GitHubSpec.BlobResult | pkg/readers/repositoryhosts/githubhttpcache/github_http_cache.go:252-262 | success exactly when there is no error and no failed HTTP status, and then the blob is the reply; a 404 error is NotFound, another error is passed on, a failed status names the operation and the status |
| GitHubSpec.FirstNamed | pkg/readers/repositoryhosts/githubhttpcache/github_http_cache.go:398-399 | none exactly when no entry has the name; otherwise the entry with the name that comes first |
| GitHubSpec.Download | pkg/readers/repositoryhosts/githubhttpcache/github_http_cache.go:388-419 | the directory is listed first; a success downloads exactly the blob of the first entry with the file's name; no such entry is NotFound |
| GitHubSpec.DownloadResults | pkg/readers/repositoryhosts/githubhttpcache/github_http_cache.go:388-415 | a listing 404 is NotFound after one call, another listing error is passed on; a named entry without SHA is the SHA error, one with a SHA gives the blob read's outcome after exactly the listing and the blob call |
| GitHubSpec.ReadResource | pkg/readers/repositoryhosts/githubhttpcache/github_http_cache.go:244-290 | wrong type fails without calls; a local mapping makes no call; a cached SHA makes one blob call; non-markdown files are downloaded; markdown 404 is NotFound, 403 falls back to the download, a failed status is an HTTP status error |
| GitHubSpec.ReadResourceResults | pkg/readers/repositoryhosts/githubhttpcache/github_http_cache.go:244-290 | a local mapping reads the local file; a cached SHA gives the blob read's outcome; a direct read passes other errors on and gives the decoded file or its decoding error, after one call |
| GitHubSpec.CacheBlobsKeys | pkg/readers/repositoryhosts/githubhttpcache/github_http_cache.go:475-479 | after a listing, the cache keys are the old keys plus the HTML URLs of the blob entries |
| GitHubSpec.CacheBlobsKeeps | pkg/readers/repositoryhosts/githubhttpcache/github_http_cache.go:475-479 | a cached SHA that no blob entry names keeps its value |
| GitHubSpec.CacheBlobsStores | pkg/readers/repositoryhosts/githubhttpcache/github_http_cache.go:475-479 | the last blob entry with an HTML URL decides its cached SHA |
| GitHubSpec.TypeOfLastNamed | pkg/readers/repositoryhosts/githubhttpcache/github_http_cache.go:475-487 | no type exactly when no entry has the name; otherwise the last such entry decides, "blob" exactly when it is a "file" |
| GitHubSpec.LinkType | pkg/readers/repositoryhosts/githubhttpcache/github_http_cache.go:430-494 | local: Lstat decides with no call; a cached blob is "blob" with no call; else one listing call, whose blobs enter the cache; a missing directory is NotFound of its tree URL; an unnamed target is NotFound of the expected URL |
| GitHubSpec.LinkTypeErrors | pkg/readers/repositoryhosts/githubhttpcache/github_http_cache.go:430-494 | a missing local target is NotFound of the expected URL, another Lstat error leaves the type undetermined; a missing directory is typed by the expected URL, another listing error leaves it undetermined; no entry with the name is NotFound of the expected URL with the blobs cached |
| GitHubSpec.EndsWithAny | pkg/readers/repositoryhosts/githubhttpcache/github_http_cache.go:144-149 | true exactly when the path ends with one of the formats |
| GitHubSpec.ExtractedPathsMembers | pkg/readers/repositoryhosts/githubhttpcache/github_http_cache.go:140-157 | a path is listed exactly when some blob entry of an extracted format has it, without its leading slash |
| GitHubSpec.MarkdownFiles | pkg/readers/repositoryhosts/githubhttpcache/github_http_cache.go:375-385 | a string is listed exactly when it is a visited non-directory ending in ".md", made relative to the walked directory; no more files than visited entries |
| GitHubSpec.FileTreeOf | pkg/readers/repositoryhosts/githubhttpcache/github_http_cache.go:118-158 | a non-tree fails without calls; a local mapping walks the directory; else one tree call, a 404 is NotFound, another failed status an HTTP status error, another error passed on, and a clean reply is exactly the extracted paths |
| GitHubSpec.AbsLinkFrom | pkg/readers/repositoryhosts/githubhttpcache/github_http_cache.go:183-217 | a link that does not parse, or whose path does not resolve against the source's, comes back with the error and no call; an absolute link is kept; a typing error returns the typed string and the error; a source URL that does not parse again gives "" and the error; otherwise the source URL gets /Owner/Repo/type/Ref/path and the link's query and fragment |
| GitHubSpec.AbsLinkFromPrefix | pkg/readers/repositoryhosts/githubhttpcache/github_http_cache.go:171-217 | the calls of the link step follow the calls made before it |
| GitHubSpec.ToAbsLink | pkg/readers/repositoryhosts/githubhttpcache/github_http_cache.go:171-217 | an unresolvable source returns the link with the error; an "http" link is first replaced by its resolved resource's URL; an "http" link that resolves to an absolute URL comes back as that URL with no error and the SHA cache untouched |
| GitHubHttpCache.GHC.constructor | pkg/readers/repositoryhosts/githubhttpcache/github_http_cache.go:78-92 | both caches and the call log start empty, and the memo is faithful |
| GitHubHttpCache.GHC.GetDefaultBranch | pkg/readers/repositoryhosts/githubhttpcache/github_http_cache.go:513-527 | result, memo and calls are DefaultBranch's; the memo stays faithful, and a slash-free repository gets GitHub's default branch |
| GitHubHttpCache.GHC.GetResolvedResourceInfo | pkg/readers/repositoryhosts/githubhttpcache/github_http_cache.go:496-511 | result, memo and calls are Resolve's; the SHA cache is untouched |
| GitHubHttpCache.GHC.DownloadContent | pkg/readers/repositoryhosts/githubhttpcache/github_http_cache.go:388-419 | the loop with early return gives Download's result and calls |
| GitHubHttpCache.GHC.ReadResource | pkg/readers/repositoryhosts/githubhttpcache/github_http_cache.go:244-290 | result and calls are ReadResource's for the current cache; neither cache changes |
| GitHubHttpCache.GHC.Read | pkg/readers/repositoryhosts/githubhttpcache/github_http_cache.go:239-290 | resolve then read: result, memo and calls are the composition of Resolve and ReadResource |
| GitHubHttpCache.GHC.DetermineLinkType | pkg/readers/repositoryhosts/githubhttpcache/github_http_cache.go:430-494 | the listing loop fills the SHA cache and types the link exactly as LinkType says |
| GitHubHttpCache.GHC.ScanListing | pkg/readers/repositoryhosts/githubhttpcache/github_http_cache.go:475-486 | the loop over the listing leaves the cache of CacheBlobs and the type of TypeOf, with no call |
| GitHubHttpCache.GHC.EndsWithFormat | pkg/readers/repositoryhosts/githubhttpcache/github_http_cache.go:144-149 | the loop with break finds a format exactly when the lowercased path ends with one |
| GitHubHttpCache.GHC.ReadLocalFileTree | pkg/readers/repositoryhosts/githubhttpcache/github_http_cache.go:375-386 | the walk callback collects exactly LocalFileTree |
| GitHubHttpCache.GHC.FileTreeFromURL | pkg/readers/repositoryhosts/githubhttpcache/github_http_cache.go:114-158 | resolve, then FileTreeOf: the loop builds exactly the extracted paths; the SHA cache is untouched |
| GitHubHttpCache.GHC.AbsLink | pkg/readers/repositoryhosts/githubhttpcache/github_http_cache.go:183-217 | result, error, calls and caches are AbsLinkFrom's |
| GitHubHttpCache.GHC.ToAbsLink | pkg/readers/repositoryhosts/githubhttpcache/github_http_cache.go:171-217 | result, error, calls and both caches are ToAbsLink's |
| GitHubHttpCache.GHC.ReadGitInfo | pkg/readers/repositoryhosts/githubhttpcache/github_http_cache.go:293-321 | one ListCommits call after resolving; its error is passed and a failed status is reported; otherwise the info of a newest-first permutation of the kept commits, tagged with ref and path |
| GitHubHttpCache.WithOrigin | pkg/readers/repositoryhosts/githubhttpcache/github_http_cache.go:310-319 | the info is kept, with the SHA alias set exactly when the ref is non-empty and the path set exactly when the path is non-empty |

## Left out

- Concurrency is not modelled: the mutexes `muxSHA`, `muxDefBr` and `muxCnt` and the callers that share one host. Each method is modelled as one sequential step.
- url.Parse, the resolution of a reference against "/"+path, URL.String and url.PathEscape are oracles of the `Platform` value. So are filepath.Join, os.ReadFile, os.Lstat and os.IsNotExist. A parsed URL's text is taken as its String().
- filepath.Walk is an oracle that gives the visited files in order. The nil `info` a Walk error would pass to the callback, which panics in Go, is not modelled.
- path.Dir is modelled without path.Clean beyond dropping trailing slashes. "." and ".." elements are kept as they are.
- strings.ToLower is modelled on ASCII letters only.
- Base64 decoding is part of the contents oracle: `Contents.file` is the decoded file or the decoding error.
- json.MarshalIndent is not modelled: ReadGitInfo returns the GitInfo value. Dates are integers, without the time formatting of DateFormat.
- The GitInfo field SHA is never set by the code and is not modelled.
- Name, GetClient, GetRateLimit and ManifestFromURL are not modelled. They only forward a field, the rate-limit client or Read.
- Nil pointers are not modelled: a nil file content, a nil SHA or a nil tree entry field. A nil SHA in a listing reads as "".
- slices.DeleteFunc's zeroing of the array's tail is not modelled. Only the kept prefix is.
- getCommitAuthor writes the name and email into the shared github.User that the commit points to. This aliasing is not modelled; the author is built as a new value.
- GitInfo.SortNewestFirst: sorts by selection sort. It promises what sort.Slice promises (newest first, a permutation), not sort.Slice's particular order of equal dates.
- Link.ResourceURLRoundTrip: requires that no field holds ':', that the owner is not "raw" and that the host does not wildcard-match "raw", "raw.githubusercontent" or "raw.githubusercontent.com". Otherwise an unanchored pattern can match later in the text, the raw-prefixed pattern takes the owner for its marker, or the githubusercontent pattern runs over the host.
- Link.RawURLRoundTrip: requires the same of the raw URL: no field holds ':', the owner is not "raw", and the host does not wildcard-match "raw", "raw.githubusercontent" or "raw.githubusercontent.com".
- Link.UserContentURL: requires the owner not to be "raw" and the host to be a single segment, for the same reason.
- GitHubSpec.Faithful (the invariant `GHC.Valid`): speaks only of owners and repositories without '/'. Only for those is the "owner/repo" key unambiguous.
- Klog logging is not modelled.

=== FILE: git_info.dfy ===
/** The git information of a file (github_http_cache.go:99-109, 537-604): from the commits
    that touched it, internal commits are dropped, the rest are ordered newest first, and
    the dates, web URL, author and contributors are read off that order. */
module GitInfo {
  import opened Wrappers
  import opened GoStrings

  /** A platform user (github.User): a missing name or email reads as "", `kind` is Type. */
  datatype User = User(name: string, email: string, kind: string)

  /** A name and email recorded in a commit (github.CommitAuthor). */
  datatype Identity = Identity(name: string, email: string)

  /** A listed commit (github.RepositoryCommit). `date` is the committer date of the commit
      as an integer, `committerEmail` the email of the platform user who committed. */
  datatype Commit = Commit(date: int, message: string, committerEmail: string, htmlUrl: string,
                           author: Option<User>, commitAuthor: Option<Identity>,
                           commitCommitter: Option<Identity>)

  /** GitInfo; dates are the integer dates, before formatting. */
  datatype GitInfo = GitInfo(lastModified: int, publishDate: int, author: Option<User>,
                             contributors: Option<seq<User>>, webUrl: string,
                             shaAlias: Option<string>, path: Option<string>)

  /** isInternalCommit: commits of the release and CI machinery. */
  predicate IsInternalCommit(c: Commit)
  {
    || HasPrefix(c.message, "[int]")
    || Contains(c.message, "[skip ci]")
    || HasPrefix(c.committerEmail, "gardener.ci")
    || HasPrefix(c.committerEmail, "gardener.opensource")
  }

  /** getCommitAuthor: the platform user with the commit author's name and email; without a
      platform user, a user made up from the commit author or else the committer. */
  function CommitAuthor(c: Commit): (u: Option<User>)
    ensures u.None? <==> c.commitAuthor.None? && c.commitCommitter.None?
    ensures c.commitAuthor.Some? ==>
      u.Some? && u.value.name == c.commitAuthor.value.name && u.value.email == c.commitAuthor.value.email
    ensures c.author.Some? && c.commitAuthor.Some? ==>
      u == Some(c.author.value.(name := c.commitAuthor.value.name, email := c.commitAuthor.value.email))
    ensures c.commitAuthor.None? && c.commitCommitter.Some? ==>
      u == Some(User(c.commitCommitter.value.name, c.commitCommitter.value.email, ""))
    // only a platform user keeps a type: made-up users have none
    ensures u.Some? && u.value.kind != "" ==>
      c.author.Some? && c.commitAuthor.Some? && u.value.kind == c.author.value.kind
  {
    if c.author.Some? && c.commitAuthor.Some? then
      Some(c.author.value.(name := c.commitAuthor.value.name, email := c.commitAuthor.value.email))
    else if c.commitAuthor.Some? then
      Some(User(c.commitAuthor.value.name, c.commitAuthor.value.email, ""))
    else if c.commitCommitter.Some? then
      Some(User(c.commitCommitter.value.name, c.commitCommitter.value.email, ""))
    else None
  }

  // ---------------------------------------------------------------------------------------
  // Dropping internal commits

  /** The commits that are not internal, in their order. */
  function Kept(cs: seq<Commit>): (k: seq<Commit>)
    ensures |k| <= |cs|
    decreases |cs|
  {
    if cs == [] then []
    else
      var last := cs[|cs| - 1];
      Kept(cs[..|cs| - 1]) + (if IsInternalCommit(last) then [] else [last])
  }

  lemma {:induction false} KeptMembers(cs: seq<Commit>)
    ensures forall c :: c in Kept(cs) <==> c in cs && !IsInternalCommit(c)
    decreases |cs|
  {
    if cs != [] {
      var init := cs[..|cs| - 1];
      KeptMembers(init);
      assert cs == init + [cs[|cs| - 1]];
    }
  }

  /** slices.DeleteFunc(commits, isInternalCommit): the kept commits are moved to the front,
      in order; `n` is their number. */
  method DeleteInternal(a: array<Commit>) returns (n: nat)
    modifies a
    ensures n <= a.Length && a[..n] == Kept(old(a[..]))
  {
    ghost var s := a[..];
    n := 0;
    var i := 0;
    while i < a.Length
      invariant n <= i <= a.Length
      invariant a[..n] == Kept(s[..i])
      invariant forall k :: i <= k < a.Length ==> a[k] == s[k]
    {
      assert s[..i + 1][..i] == s[..i];
      if !IsInternalCommit(a[i]) {
        a[n] := a[i];
        n := n + 1;
      }
      i := i + 1;
    }
    assert s[..a.Length] == s;
  }

  // ---------------------------------------------------------------------------------------
  // Ordering newest first

  predicate NewestFirst(s: seq<Commit>)
  {
    forall i, j :: 0 <= i < j < |s| ==> s[i].date >= s[j].date
  }

  /** Index of a newest commit among `a[i..n]`. */
  method NewestIn(a: array<Commit>, i: nat, n: nat) returns (m: nat)
    requires i < n <= a.Length
    ensures i <= m < n
    ensures forall q :: i <= q < n ==> a[m].date >= a[q].date
  {
    m := i;
    var j := i + 1;
    while j < n
      invariant i <= m < n && i < j <= n
      invariant forall q :: i <= q < j ==> a[m].date >= a[q].date
    {
      if a[j].date > a[m].date {
        m := j;
      }
      j := j + 1;
    }
  }

  /** Exchanges two of the first `n` commits. */
  method Swap(a: array<Commit>, n: nat, i: nat, m: nat)
    requires i < n <= a.Length && m < n
    modifies a
    ensures a[..] == old(a[..])[i := old(a[m])][m := old(a[i])]
    ensures multiset(a[..n]) == multiset(old(a[..n]))
  {
    ghost var before := a[..n];
    a[i], a[m] := a[m], a[i];
    assert a[..n] == before[i := before[m]][m := before[i]];
  }

  /** sort.Slice with the "committed after" order on the first `n` commits. The sort is not
      stable, so commits with equal dates end up in no promised order. */
  method SortNewestFirst(a: array<Commit>, n: nat)
    requires n <= a.Length
    modifies a
    ensures NewestFirst(a[..n])
    ensures multiset(a[..n]) == multiset(old(a[..n]))
  {
    var i := 0;
    while i < n
      invariant i <= n
      invariant forall p, q :: 0 <= p < q < n && p < i ==> a[p].date >= a[q].date
      invariant multiset(a[..n]) == multiset(old(a[..n]))
    {
      var m := NewestIn(a, i, n);
      Swap(a, n, i, m);
      i := i + 1;
    }
  }

  // ---------------------------------------------------------------------------------------
  // Contributors

  function EmailOf(u: Option<User>): string
  {
    if u.Some? then u.value.email else ""
  }

  function Emails(us: seq<User>): (es: seq<string>)
    ensures |es| == |us| && forall k :: 0 <= k < |us| ==> es[k] == us[k].email
  {
    seq(|us|, k requires 0 <= k < |us| => us[k].email)
  }

  /** A user joins the contributors when it is a platform user of type "User", is not the
      author and has not joined before. */
  predicate Joins(u: User, authorEmail: string, before: seq<User>)
  {
    u.kind == "User" && u.email != authorEmail && u.email !in Emails(before)
  }

  /** The contributors collected from `cs` in order. */
  function Contributors(cs: seq<Commit>, authorEmail: string): (us: seq<User>)
    ensures |us| <= |cs|
    decreases |cs|
  {
    if cs == [] then []
    else
      var before := Contributors(cs[..|cs| - 1], authorEmail);
      var u := CommitAuthor(cs[|cs| - 1]);
      if u.Some? && Joins(u.value, authorEmail, before) then before + [u.value] else before
  }

  /** Every contributor is a platform user of type "User" other than the author, and no
      email is listed twice. */
  lemma {:induction false} ContributorsWellFormed(cs: seq<Commit>, authorEmail: string)
    ensures forall k :: 0 <= k < |Contributors(cs, authorEmail)| ==>
      Contributors(cs, authorEmail)[k].kind == "User" && Contributors(cs, authorEmail)[k].email != authorEmail
    ensures forall k, l :: 0 <= k < l < |Contributors(cs, authorEmail)| ==>
      Contributors(cs, authorEmail)[k].email != Contributors(cs, authorEmail)[l].email
    decreases |cs|
  {
    if cs != [] {
      var init := cs[..|cs| - 1];
      ContributorsWellFormed(init, authorEmail);
      var before := Contributors(init, authorEmail);
      var u := CommitAuthor(cs[|cs| - 1]);
      if u.Some? && Joins(u.value, authorEmail, before) {
        var us := before + [u.value];
        assert Contributors(cs, authorEmail) == us;
        forall k | 0 <= k < |before| ensures before[k].email != u.value.email {
          assert Emails(before)[k] == before[k].email;
        }
        assert forall k :: 0 <= k < |before| ==> us[k] == before[k];
      }
    }
  }

  /** `u` is the commit author of one of the commits. */
  predicate AuthorOfSome(cs: seq<Commit>, u: User)
  {
    exists i :: 0 <= i < |cs| && CommitAuthor(cs[i]) == Some(u)
  }

  /** Every contributor is the commit author of one of the commits. */
  lemma {:induction false} ContributorsFromCommits(cs: seq<Commit>, authorEmail: string)
    ensures forall u :: u in Contributors(cs, authorEmail) ==> AuthorOfSome(cs, u)
    decreases |cs|
  {
    if cs != [] {
      var init := cs[..|cs| - 1];
      ContributorsFromCommits(init, authorEmail);
      forall u | u in Contributors(cs, authorEmail) ensures AuthorOfSome(cs, u) {
        if u in Contributors(init, authorEmail) {
          var i :| 0 <= i < |init| && CommitAuthor(init[i]) == Some(u);
          assert cs[i] == init[i];
        } else {
          assert CommitAuthor(cs[|cs| - 1]) == Some(u);
        }
      }
    }
  }

  /** The author of `c` is a platform user of type "User" other than the author. */
  predicate Qualifies(c: Commit, authorEmail: string)
  {
    CommitAuthor(c).Some? && CommitAuthor(c).value.kind == "User" && CommitAuthor(c).value.email != authorEmail
  }

  /** Every commit whose author is a platform user of type "User" other than the author has
      its email among the contributors. */
  lemma {:induction false} ContributorsComplete(cs: seq<Commit>, authorEmail: string)
    ensures forall i :: 0 <= i < |cs| && Qualifies(cs[i], authorEmail) ==>
      CommitAuthor(cs[i]).value.email in Emails(Contributors(cs, authorEmail))
    decreases |cs|
  {
    if cs != [] {
      var init := cs[..|cs| - 1];
      ContributorsComplete(init, authorEmail);
      var before := Contributors(init, authorEmail);
      var us := Contributors(cs, authorEmail);
      assert Emails(us)[..|before|] == Emails(before);
      forall i | 0 <= i < |cs| && Qualifies(cs[i], authorEmail)
        ensures CommitAuthor(cs[i]).value.email in Emails(us)
      {
        if i < |init| {
          assert cs[i] == init[i];
          var e := CommitAuthor(cs[i]).value.email;
          var k :| 0 <= k < |before| && Emails(before)[k] == e;
          assert Emails(us)[k] == e;
        } else {
          var u := CommitAuthor(cs[i]).value;
          if !Joins(u, authorEmail, before) {
            var k :| 0 <= k < |before| && Emails(before)[k] == u.email;
            assert Emails(us)[k] == u.email;
          } else {
            assert Emails(us)[|us| - 1] == u.email;
          }
        }
      }
    }
  }

  /** The contributors loop of transform over the first `n` commits of `a`. */
  method CollectContributors(a: array<Commit>, n: nat, authorEmail: string) returns (us: seq<User>)
    requires n <= a.Length
    ensures us == Contributors(a[..n], authorEmail)
  {
    us := [];
    var registered: seq<string> := [];
    var i := 0;
    while i < n
      invariant i <= n
      invariant us == Contributors(a[..i], authorEmail)
      invariant registered == Emails(us)
    {
      assert a[..i + 1][..i] == a[..i];
      var u := CommitAuthor(a[i]);
      if u.Some? {
        if u.value.kind == "User" && u.value.email != authorEmail && u.value.email !in registered {
          us := us + [u.value];
          registered := registered + [u.value.email];
        }
      }
      i := i + 1;
    }
  }

  // ---------------------------------------------------------------------------------------
  // transform

  /** The git information read off commits already ordered newest first: none for no
      commits; otherwise the newest commit gives the modification date and web URL, the
      oldest the publication date and author, and contributors exist from two commits on. */
  function InfoOf(order: seq<Commit>): (info: Option<GitInfo>)
    ensures info.None? <==> order == []
    ensures info.Some? ==> HasPrefix(order[0].htmlUrl, info.value.webUrl)
    ensures info.Some? ==> (info.value.contributors.Some? <==> |order| >= 2)
  {
    if order == [] then None
    else
      var oldest := order[|order| - 1];
      var author := CommitAuthor(oldest);
      Some(GitInfo(
        lastModified := order[0].date,
        publishDate := oldest.date,
        author := author,
        contributors := if |order| < 2 then None else Some(Contributors(order, EmailOf(author))),
        webUrl := TextBefore(order[0].htmlUrl, "/commit/"),
        shaAlias := None,
        path := None))
  }

  /** transform. A nil list is `null`; the commits are reordered in place as in the source.
      `order` is the newest-first order the unstable sort chose. */
  method Transform(commits: array?<Commit>) returns (info: Option<GitInfo>, ghost order: seq<Commit>)
    modifies commits
    ensures commits == null ==> info == None
    ensures commits != null ==>
      && NewestFirst(order)
      && multiset(order) == multiset(Kept(old(commits[..])))
      && info == InfoOf(order)
  {
    order := [];
    if commits == null {
      return None, order;
    }
    var n := DeleteInternal(commits);
    ghost var kept := commits[..n];
    if n == 0 {
      return None, order;
    }
    SortNewestFirst(commits, n);
    order := commits[..n];
    assert multiset(order) == multiset(kept);
    var oldest := commits[n - 1];
    assert oldest == order[|order| - 1] && commits[0] == order[0];
    var author := CommitAuthor(oldest);
    var webUrl := TextBefore(commits[0].htmlUrl, "/commit/");
    if n < 2 {
      return Some(GitInfo(commits[0].date, oldest.date, author, None, webUrl, None, None)), order;
    }
    var us := CollectContributors(commits, n, EmailOf(author));
    info := Some(GitInfo(commits[0].date, oldest.date, author, Some(us), webUrl, None, None));
  }

  /** A reordering of the kept commits holds exactly the commits that are not internal. */
  lemma OrderMembers(commits: seq<Commit>, order: seq<Commit>)
    requires multiset(order) == multiset(Kept(commits))
    ensures forall c :: c in order <==> c in commits && !IsInternalCommit(c)
  {
    KeptMembers(commits);
    forall c ensures c in order <==> c in commits && !IsInternalCommit(c) {
      assert c in order <==> c in multiset(order);
      assert c in Kept(commits) <==> c in multiset(Kept(commits));
    }
  }

  /** The dates of a newest-first sequence lie between its last one's and its first one's. */
  lemma OrderSpan(order: seq<Commit>)
    requires NewestFirst(order) && order != []
    ensures forall c :: c in order ==> order[|order| - 1].date <= c.date <= order[0].date
  {
    forall c | c in order
      ensures order[|order| - 1].date <= c.date <= order[0].date
    {
      var k :| 0 <= k < |order| && order[k] == c;
    }
  }

  /** The dates of the result: the modification date is the newest date of a kept commit,
      the publication date the oldest, and the author that of a kept commit with the
      publication date; there is a result exactly when some commit is kept. */
  lemma InfoDates(commits: seq<Commit>, order: seq<Commit>)
    requires NewestFirst(order) && multiset(order) == multiset(Kept(commits))
    ensures InfoOf(order).Some? <==> exists c :: c in commits && !IsInternalCommit(c)
    ensures InfoOf(order).Some? ==>
      && (forall c :: c in commits && !IsInternalCommit(c) ==>
            InfoOf(order).value.publishDate <= c.date <= InfoOf(order).value.lastModified)
      && (exists c :: c in commits && !IsInternalCommit(c) && c.date == InfoOf(order).value.lastModified)
      && (exists c :: c in commits && !IsInternalCommit(c) && c.date == InfoOf(order).value.publishDate
                      && InfoOf(order).value.author == CommitAuthor(c))
  {
    OrderMembers(commits, order);
    if order != [] {
      OrderSpan(order);
      var info, oldest := InfoOf(order).value, order[|order| - 1];
      assert order[0] in order && oldest in order;
      assert info.lastModified == order[0].date;
      assert info.publishDate == oldest.date && info.author == CommitAuthor(oldest);
    }
  }
}

=== FILE: github_api.dfy ===
/** What the GitHub host (github_http_cache.go) talks to: the GitHub client, the file
    system and Go's url and filepath libraries. None of them is modelled inside; each is
    an oracle, a function from the call's arguments to its reply, fixed for the life of a
    host. The host's errors and the calls it makes to GitHub are records too. */
module GitHubApi {
  import opened Wrappers
  import opened Link
  import opened GitInfo

  type Bytes = seq<bv8>

  /** A client reply: the HTTP status when there is a response, the error when the call
      failed, and the value. */
  datatype Reply<T> = Reply(status: Option<int>, err: Option<string>, value: T)
  {
    predicate StatusIs(code: int) { status == Some(code) }

    /** `resp != nil && resp.StatusCode >= 400` */
    predicate HttpFailed() { status.Some? && status.value >= 400 }
  }

  /** An entry of a directory listing (github.RepositoryContent); a nil SHA reads as "". */
  datatype DirEntry = DirEntry(name: string, kind: string, sha: string, htmlUrl: string)

  /** A GetContents reply: the file, base64-decoded (or the decoding error), and the
      directory listing. */
  datatype Contents = Contents(file: Result<Bytes, string>, dir: seq<DirEntry>)

  /** An entry of a git tree (github.TreeEntry). */
  datatype TreeEntry = TreeEntry(path: string, kind: string)

  /** The GitHub client: Repositories.GetContents(owner, repo, path, ref),
      Git.GetBlobRaw(owner, repo, sha), Git.GetTree(owner, repo, sha) (recursive),
      Repositories.Get(owner, repo) (the default branch of the repository) and
      Repositories.ListCommits(owner, repo, path, sha); a nil commit list is None. */
  datatype Api = Api(
    contents: (string, string, string, string) -> Reply<Contents>,
    blob: (string, string, string) -> Reply<Bytes>,
    tree: (string, string, string) -> Reply<seq<TreeEntry>>,
    repository: (string, string) -> Reply<string>,
    commits: (string, string, string, string) -> Reply<Option<seq<Commit>>>)

  /** A call made to the GitHub client, with its arguments. */
  datatype Call =
    | GetContents(owner: string, repo: string, path: string, ref: string)
    | GetBlobRaw(owner: string, repo: string, sha: string)
    | GetTree(owner: string, repo: string, sha: string)
    | GetRepository(owner: string, repo: string)
    | ListCommits(owner: string, repo: string, path: string, ref: string)

  /** os.ReadFile; `notExist` is what os.IsNotExist says of the error. */
  datatype FileRead = FileContent(content: Bytes) | ReadError(notExist: bool, message: string)

  /** os.Lstat */
  datatype FileStat = Stat(isDir: bool) | StatError(notExist: bool, message: string)

  /** A file visited by filepath.Walk. */
  datatype WalkEntry = WalkEntry(path: string, isDir: bool)

  /** The file system and the url and filepath libraries:
      `parse` is url.Parse; `resolve(base, ref)` the path of url.Parse("/" + base) resolved
      against `ref` (section 5.2 of RFC 3986), or the error of either step; `format` is
      URL.String; `escape` is url.PathEscape; `join` is filepath.Join. */
  datatype Platform = Platform(
    parse: string -> Result<Url, string>,
    resolve: (string, string) -> Result<string, string>,
    format: Url -> string,
    escape: string -> string,
    join: (string, string) -> string,
    readFile: string -> FileRead,
    lstat: string -> FileStat,
    walk: string -> seq<WalkEntry>)

  /** What a failed HTTP status was met doing. */
  datatype Op = ReadingTree | ReadingBlob | ContentDownload | ListingCommits

  /** The host's errors. `Passed` is an error of a client or library call returned as it
      came. */
  datatype Error =
    | NotFound(uri: string)
    | NotBlobOrRaw(uri: string)
    | NotTree(uri: string)
    | HttpStatus(op: Op, uri: string, code: int)
    | NoSHA(uri: string)
    | LocalReadFailed(file: string, uri: string, cause: string)
    | TypeUndetermined(path: string, uri: string, cause: string)
    | Passed(cause: string)

  /** The settings a host is made with (NewGHC): the client and platform, the accepted
      hosts, the local mappings from repository URL to directory, and the file formats a
      file tree extracts. */
  datatype Setup = Setup(api: Api, platform: Platform, acceptedHosts: seq<string>,
                         localMappings: map<string, string>, extractedFormats: seq<string>)
}

=== FILE: github_http_cache.dfy ===
/** The GitHub repository host (github_http_cache.go): a `GHC` object holds the settings it
    was made with, the file SHA cache and the default branch memo, both filled as it goes.
    Each method is proved against the GitHubSpec function of the same operation: its result,
    the calls it makes to GitHub (appended to `calls`) and the caches it leaves behind are
    the ones that function gives. */
module GitHubHttpCache {
  import opened Wrappers
  import opened GoStrings
  import opened Link
  import opened GitInfo
  import opened GitHubApi
  import opened GitHubSpec

  class GHC {
    const setup: Setup
    /** HTML URL of a file -> its blob SHA, filled by determineLinkType */
    var filesCache: map<string, string>
    /** "owner/repo" -> default branch */
    var defBranches: map<string, string>
    /** every call made to the GitHub client, in order */
    var calls: seq<Call>

    /** The memo holds, for every repository, the branch GitHub named. */
    ghost predicate Valid()
      reads this
    {
      Faithful(setup.api, defBranches)
    }

    /** NewGHC: both caches start empty. */
    constructor (setup: Setup)
      ensures this.setup == setup && filesCache == map[] && defBranches == map[] && calls == []
      ensures Valid()
    {
      this.setup := setup;
      filesCache := map[];
      defBranches := map[];
      calls := [];
    }

    /** getDefaultBranch: the memoised branch, or the one GitHub names, memoised. */
    method GetDefaultBranch(owner: string, repo: string) returns (res: Result<string, Error>)
      requires Valid()
      modifies this
      ensures Valid()
      ensures var st := DefaultBranch(setup, old(defBranches), owner, repo);
        && res == st.result && defBranches == st.branches
        && calls == old(calls) + st.calls && filesCache == old(filesCache)
      ensures res.Success? && '/' !in owner && '/' !in repo ==>
        setup.api.repository(owner, repo).err.None? && res.value == setup.api.repository(owner, repo).value
    {
      DefaultBranchFaithful(setup, defBranches, owner, repo);
      var key := BranchKey(owner, repo);
      if key in defBranches {
        return Success(defBranches[key]);
      }
      var reply := setup.api.repository(owner, repo);
      calls := calls + [GetRepository(owner, repo)];
      if reply.err.Some? {
        return Failure(Passed(reply.err.value));
      }
      defBranches := defBranches[key := reply.value];
      return Success(reply.value);
    }

    /** getResolvedResourceInfo: the resource of `uri`, with DEFAULT_BRANCH replaced. */
    method GetResolvedResourceInfo(uri: string) returns (res: Result<Resource, Error>)
      requires Valid()
      modifies this
      ensures Valid()
      ensures var st := Resolve(setup, old(defBranches), uri);
        && res == st.result && defBranches == st.branches
        && calls == old(calls) + st.calls && filesCache == old(filesCache)
    {
      var parsed := setup.platform.parse(uri);
      if parsed.Failure? {
        return Failure(Passed(parsed.error));
      }
      var r := NewResourceFromURL(parsed.value);
      if r.ref != DefaultBranchRef {
        return Success(r);
      }
      var b := GetDefaultBranch(r.owner, r.repo);
      if b.Failure? {
        return Failure(b.error);
      }
      return Success(r.(ref := b.value));
    }

    /** downloadContent: lists the file's directory and fetches the blob of the first entry
        with the file's name. */
    method DownloadContent(r: Resource) returns (res: Result<Bytes, Error>)
      modifies this
      ensures var o := Download(setup, r);
        && res == o.result && calls == old(calls) + o.calls
        && filesCache == old(filesCache) && defBranches == old(defBranches)
    {
      var dir := Dir(r.path);
      var filename := Base(r.path);
      var listing := setup.api.contents(r.owner, r.repo, dir, r.ref);
      calls := calls + [GetContents(r.owner, r.repo, dir, r.ref)];
      if listing.err.Some? {
        if listing.StatusIs(404) {
          return Failure(NotFound(r.String()));
        }
        return Failure(Passed(listing.err.value));
      }
      var entries := listing.value.dir;
      var i := 0;
      while i < |entries|
        invariant 0 <= i <= |entries|
        invariant FirstNamed(entries, filename) == FirstNamed(entries[i..], filename)
        invariant calls == old(calls) + [GetContents(r.owner, r.repo, dir, r.ref)]
        invariant filesCache == old(filesCache) && defBranches == old(defBranches)
      {
        var e := entries[i];
        if e.name == filename {
          assert FirstNamed(entries, filename) == Some(e);
          if e.sha == "" {
            return Failure(NoSHA(r.String()));
          }
          var blob := setup.api.blob(r.owner, r.repo, e.sha);
          ConcatAssoc(old(calls), [GetContents(r.owner, r.repo, dir, r.ref)], [GetBlobRaw(r.owner, r.repo, e.sha)]);
          calls := calls + [GetBlobRaw(r.owner, r.repo, e.sha)];
          return BlobResult(blob, ContentDownload, r.String());
        }
        assert entries[i..][1..] == entries[i + 1..];
        i := i + 1;
      }
      // not found
      return Failure(NotFound(r.String()));
    }

    /** Read, once the resource is resolved. */
    method ReadResource(r: Resource) returns (res: Result<Bytes, Error>)
      modifies this
      ensures var o := GitHubSpec.ReadResource(setup, old(filesCache), r);
        && res == o.result && calls == old(calls) + o.calls
        && filesCache == old(filesCache) && defBranches == old(defBranches)
    {
      if r.kind != "blob" && r.kind != "raw" {
        return Failure(NotBlobOrRaw(r.String()));
      }
      var local := LocalMapping(setup, r);
      if |local| > 0 {
        return ReadLocalFile(setup, r, local);
      }
      var sha := GetFileSHA(filesCache, r.String());
      if sha.Some? {
        var blob := setup.api.blob(r.owner, r.repo, sha.value);
        calls := calls + [GetBlobRaw(r.owner, r.repo, sha.value)];
        return BlobResult(blob, ReadingBlob, r.String());
      }
      if !ReadDirectly(r.path) {
        res := DownloadContent(r);
        return;
      }
      var reply := setup.api.contents(r.owner, r.repo, r.path, r.ref);
      calls := calls + [GetContents(r.owner, r.repo, r.path, r.ref)];
      if reply.err.Some? {
        if reply.StatusIs(404) {
          return Failure(NotFound(r.String()));
        }
        if reply.StatusIs(403) {
          res := DownloadContent(r);
          return;
        }
        return Failure(Passed(reply.err.value));
      }
      if reply.HttpFailed() {
        return Failure(HttpStatus(ReadingBlob, r.String(), reply.status.value));
      }
      if reply.value.file.Failure? {
        return Failure(Passed(reply.value.file.error));
      }
      return Success(reply.value.file.value);
    }

    /** Read: the content of the blob or raw resource `uri`. */
    method Read(uri: string) returns (res: Result<Bytes, Error>)
      requires Valid()
      modifies this
      ensures Valid()
      ensures var st := GitHubSpec.Read(setup, old(filesCache), old(defBranches), uri);
        && res == st.result && defBranches == st.branches
        && calls == old(calls) + st.calls && filesCache == old(filesCache)
    {
      ghost var st := Resolve(setup, defBranches, uri);
      ghost var cache := filesCache;
      var resolved := GetResolvedResourceInfo(uri);
      if resolved.Failure? {
        return Failure(resolved.error);
      }
      res := ReadResource(resolved.value);
      ConcatAssoc(old(calls), st.calls, GitHubSpec.ReadResource(setup, cache, resolved.value).calls);
    }

    /** determineLinkType: a listing of the link's directory stores every blob's SHA under
        its HTML URL and types the link by the last entry with its name. */
    method DetermineLinkType(source: Resource, relPath: string) returns (tp: string, err: Option<Error>)
      modifies this
      ensures var t := LinkType(setup, old(filesCache), source, relPath);
        && tp == t.tp && err == t.err && filesCache == t.cache
        && calls == old(calls) + t.calls && defBranches == old(defBranches)
    {
      var gtp := if |Ext(relPath)| > 0 then "blob" else "tree";
      var expURI := SourceURI(source, gtp, relPath);
      var local := LocalMapping(setup, source);
      if |local| > 0 {
        var stat := setup.platform.lstat(setup.platform.join(local, relPath));
        if stat.StatError? {
          if stat.notExist {
            return expURI, Some(NotFound(expURI));
          }
          return "", Some(TypeUndetermined(relPath, source.String(), stat.message));
        }
        return if stat.isDir then "tree" else "blob", None;
      }
      if GetFileSHA(filesCache, SourceURI(source, "blob", relPath)).Some? {
        return "blob", None;
      }
      var dir := Dir(relPath);
      var listing := setup.api.contents(source.owner, source.repo, dir, source.ref);
      calls := calls + [GetContents(source.owner, source.repo, dir, source.ref)];
      if listing.err.Some? {
        if listing.StatusIs(404) {
          return expURI, Some(NotFound(SourceURI(source, "tree", dir)));
        }
        return "", Some(TypeUndetermined(relPath, source.String(), listing.err.value));
      }
      tp := ScanListing(listing.value.dir, Base(relPath));
      if tp == "" {
        return expURI, Some(NotFound(expURI));
      }
      return tp, None;
    }

    /** The loop of determineLinkType over the listing: every blob's SHA is cached under
        its HTML URL, and the last entry named `name` gives the type. */
    method ScanListing(entries: seq<DirEntry>, name: string) returns (tp: string)
      modifies this
      ensures filesCache == CacheBlobs(old(filesCache), entries)
      ensures tp == TypeOf(entries, name)
      ensures calls == old(calls) && defBranches == old(defBranches)
    {
      tp := "";
      var i := 0;
      while i < |entries|
        invariant 0 <= i <= |entries|
        invariant filesCache == CacheBlobs(old(filesCache), entries[..i])
        invariant tp == TypeOf(entries[..i], name)
        invariant calls == old(calls) && defBranches == old(defBranches)
      {
        var d := entries[i];
        CacheBlobsStep(old(filesCache), entries, i);
        TypeOfStep(entries, name, i);
        if d.kind == "blob" {
          filesCache := filesCache[d.htmlUrl := d.sha];
        }
        if d.name == name {
          tp := if d.kind == "file" then "blob" else "tree";
        }
        i := i + 1;
      }
      assert entries[..|entries|] == entries;
    }

    /** The loop over ExtractedFilesFormats: does the lowercased path end with a format? */
    method EndsWithFormat(ePath: string) returns (extracted: bool)
      ensures extracted <==> exists k :: 0 <= k < |setup.extractedFormats|
                                      && HasSuffix(ToLower(ePath), setup.extractedFormats[k])
    {
      var formats := setup.extractedFormats;
      var lower := ToLower(ePath);
      extracted := false;
      var j := 0;
      while j < |formats|
        invariant 0 <= j <= |formats|
        invariant forall k :: 0 <= k < j ==> !HasSuffix(lower, formats[k])
      {
        if HasSuffix(lower, formats[j]) {
          return true;
        }
        j := j + 1;
      }
    }

    /** readLocalFileTree: the markdown files filepath.Walk visits under the mapped
        directory, relative to it. */
    method ReadLocalFileTree(r: Resource, local: string) returns (files: seq<string>)
      ensures files == LocalFileTree(setup, r, local)
    {
      var dirPath := setup.platform.join(local, r.path);
      var visited := setup.platform.walk(dirPath);
      files := [];
      var i := 0;
      while i < |visited|
        invariant 0 <= i <= |visited|
        invariant files == MarkdownFiles(visited[..i], dirPath)
      {
        var e := visited[i];
        assert visited[..i + 1][..i] == visited[..i];
        if !e.isDir && HasSuffix(e.path, ".md") {
          files := files + [TrimPrefix(TrimPrefix(e.path, dirPath), "/")];
        }
        i := i + 1;
      }
      assert visited[..|visited|] == visited;
    }

    /** FileTreeFromURL: the paths of the tree's blobs in an extracted format. */
    method FileTreeFromURL(uri: string) returns (res: Result<seq<string>, Error>)
      requires Valid()
      modifies this
      ensures Valid()
      ensures var st := Resolve(setup, old(defBranches), uri);
        && defBranches == st.branches && filesCache == old(filesCache)
        && (st.result.Failure? ==> res == Failure(st.result.error) && calls == old(calls) + st.calls)
        && (st.result.Success? ==>
              var o := FileTreeOf(setup, st.result.value);
              res == o.result && calls == old(calls) + st.calls + o.calls)
    {
      var resolved := GetResolvedResourceInfo(uri);
      if resolved.Failure? {
        return Failure(resolved.error);
      }
      var r := resolved.value;
      if r.kind != "tree" {
        return Failure(NotTree(r.String()));
      }
      var local := LocalMapping(setup, r);
      if |local| > 0 {
        var files := ReadLocalFileTree(r, local);
        return Success(files);
      }
      var sha := setup.platform.escape(r.ref + ":" + r.path);
      var reply := setup.api.tree(r.owner, r.repo, sha);
      calls := calls + [GetTree(r.owner, r.repo, sha)];
      if reply.StatusIs(404) {
        return Failure(NotFound(r.String()));
      }
      if reply.HttpFailed() {
        return Failure(HttpStatus(ReadingTree, r.String(), reply.status.value));
      }
      if reply.err.Some? {
        return Failure(Passed(reply.err.value));
      }
      var entries := reply.value;
      var paths: seq<string> := [];
      ghost var callsBefore, branchesBefore := calls, defBranches;
      var i := 0;
      while i < |entries|
        invariant 0 <= i <= |entries|
        invariant calls == callsBefore && defBranches == branchesBefore && filesCache == old(filesCache)
        invariant paths == ExtractedPaths(entries[..i], setup.extractedFormats)
      {
        var e := entries[i];
        assert entries[..i + 1][..i] == entries[..i];
        var ePath := TrimPrefix(e.path, "/");
        var extracted := EndsWithFormat(ePath);
        if e.kind == "blob" && extracted {
          paths := paths + [ePath];
        }
        i := i + 1;
      }
      assert entries[..|entries|] == entries;
      return Success(paths);
    }

    /** ToAbsLink once the source resource `r` is resolved: `link` is kept when absolute,
        otherwise resolved against the source's path and typed. */
    method AbsLink(r: Resource, link: string) returns (res: string, err: Option<Error>)
      modifies this
      ensures var l := AbsLinkFrom(setup, old(filesCache), old(defBranches), old(calls), r, link);
        && res == l.link && err == l.err && calls == l.calls
        && defBranches == l.branches && filesCache == l.cache
    {
      var parsed := setup.platform.parse(TrimSuffix(link, "/"));
      if parsed.Failure? {
        return link, Some(Passed(parsed.error));
      }
      var lu := parsed.value;
      if lu.IsAbs() {
        return link, None;
      }
      var resolved := setup.platform.resolve(r.path, lu.path);
      if resolved.Failure? {
        return link, Some(Passed(resolved.error));
      }
      var upath := resolved.value;
      var tp, e := DetermineLinkType(r, upath);
      if e.Some? {
        return tp, e;
      }
      var base := setup.platform.parse(r.url.text);
      if base.Failure? {
        return "", Some(Passed(base.error));
      }
      var u := base.value.(path := AbsLinkPath(r, tp, upath), forceQuery := lu.forceQuery,
                           rawQuery := lu.rawQuery, fragment := lu.fragment);
      return setup.platform.format(u), None;
    }

    /** ToAbsLink: the absolute URL of `link` as written in the document at `source`. */
    method ToAbsLink(source: string, link: string) returns (res: string, err: Option<Error>)
      requires Valid()
      modifies this
      ensures Valid()
      ensures var l := GitHubSpec.ToAbsLink(setup, old(filesCache), old(defBranches), source, link);
        && res == l.link && err == l.err && calls == old(calls) + l.calls
        && defBranches == l.branches && filesCache == l.cache
    {
      var src := GetResolvedResourceInfo(source);
      if src.Failure? {
        return link, Some(src.error);
      }
      var r := src.value;
      var target := link;
      if HasPrefix(link, "http") {
        var l := GetResolvedResourceInfo(link);
        if l.Failure? {
          return link, Some(l.error);
        }
        target := l.value.String();
      }
      ghost var srcStep := Resolve(setup, old(defBranches), source);
      ghost var lr := Resolve(setup, srcStep.branches, link);
      ghost var rest := AbsLinkFrom(setup, filesCache, defBranches, [], r, target).calls;
      AbsLinkFromPrefix(setup, filesCache, defBranches, calls, r, target);
      if HasPrefix(link, "http") {
        AbsLinkFromPrefix(setup, filesCache, defBranches, srcStep.calls + lr.calls, r, target);
        ConcatAssoc(old(calls), srcStep.calls, lr.calls);
        ConcatAssoc(old(calls), srcStep.calls + lr.calls, rest);
      } else {
        AbsLinkFromPrefix(setup, filesCache, defBranches, srcStep.calls, r, target);
        ConcatAssoc(old(calls), srcStep.calls, rest);
      }
      res, err := AbsLink(r, target);
    }

    /** ReadGitInfo: the git information of the commits GitHub lists for the resource, with
        its ref and path. */
    method ReadGitInfo(uri: string) returns (res: Result<Option<GitInfo>, Error>, ghost order: seq<Commit>)
      requires Valid()
      modifies this
      ensures Valid()
      ensures var st := Resolve(setup, old(defBranches), uri);
        && defBranches == st.branches && filesCache == old(filesCache)
        && (st.result.Failure? ==> res == Failure(st.result.error) && calls == old(calls) + st.calls)
        && (st.result.Success? ==>
              var r := st.result.value;
              var reply := setup.api.commits(r.owner, r.repo, r.path, r.ref);
              && calls == old(calls) + st.calls + [ListCommits(r.owner, r.repo, r.path, r.ref)]
              && (reply.err.Some? ==> res == Failure(Passed(reply.err.value)))
              && (reply.err.None? && reply.HttpFailed() ==>
                    res == Failure(HttpStatus(ListingCommits, r.String(), reply.status.value)))
              && (reply.err.None? && !reply.HttpFailed() && reply.value.None? ==> res == Success(None))
              && (reply.err.None? && !reply.HttpFailed() && reply.value.Some? ==>
                    && NewestFirst(order)
                    && multiset(order) == multiset(Kept(reply.value.value))
                    && res == Success(WithOrigin(InfoOf(order), r))))
    {
      order := [];
      var resolved := GetResolvedResourceInfo(uri);
      if resolved.Failure? {
        return Failure(resolved.error), order;
      }
      var r := resolved.value;
      var reply := setup.api.commits(r.owner, r.repo, r.path, r.ref);
      calls := calls + [ListCommits(r.owner, r.repo, r.path, r.ref)];
      if reply.err.Some? {
        return Failure(Passed(reply.err.value)), order;
      }
      if reply.HttpFailed() {
        return Failure(HttpStatus(ListingCommits, r.String(), reply.status.value)), order;
      }
      var commits: array?<Commit> := null;
      if reply.value.Some? {
        var cs := reply.value.value;
        commits := new Commit[|cs|](k requires 0 <= k < |cs| => cs[k]);
        assert commits[..] == cs;
      }
      var info;
      info, order := Transform(commits);
      return Success(WithOrigin(info, r)), order;
    }
  }

  lemma ConcatAssoc(a: seq<Call>, b: seq<Call>, c: seq<Call>)
    ensures (a + b) + c == a + (b + c)
  {
  }

  /** The git information with the resource's ref as SHA alias and its path, each only
      when not empty. */
  function WithOrigin(info: Option<GitInfo>, r: Resource): (o: Option<GitInfo>)
    ensures o.None? <==> info.None?
    ensures o.Some? ==>
      && o.value.lastModified == info.value.lastModified
      && o.value.publishDate == info.value.publishDate
      && o.value.author == info.value.author
      && o.value.contributors == info.value.contributors
      && o.value.webUrl == info.value.webUrl
    ensures o.Some? ==>
      && (o.value.shaAlias == Some(r.ref) <==> r.ref != "")
      && (o.value.shaAlias.None? <==> r.ref == "")
    ensures o.Some? ==>
      && (o.value.path == Some(r.path) <==> r.path != "")
      && (o.value.path.None? <==> r.path == "")
  {
    match info
    case None => None
    case Some(g) =>
      Some(g.(shaAlias := if |r.ref| > 0 then Some(r.ref) else None,
              path := if |r.path| > 0 then Some(r.path) else None))
  }
}

=== FILE: github_spec.dfy ===
/** What each operation of the GitHub host (github_http_cache.go) yields, as functions of
    its setup, its two caches and its arguments: the result, the calls made to GitHub in
    order, and the caches after it. The class in github_http_cache.dfy is proved to do
    what these say. */
module GitHubSpec {
  import opened Wrappers
  import opened GoStrings
  import opened Link
  import opened GitInfo
  import opened GitHubApi

  /** The ref that stands for the repository's default branch. */
  const DefaultBranchRef := "DEFAULT_BRANCH"

  /** A result and the calls made to GitHub for it, in order. */
  datatype Outcome<T> = Outcome(result: Result<T, Error>, calls: seq<Call>)

  /** An outcome that went through default-branch resolution, with the memo of default
      branches after it. */
  datatype Step<T> = Step(result: Result<T, Error>, calls: seq<Call>, branches: map<string, string>)

  // ---------------------------------------------------------------------------------------
  // Accept, checkForLocalMapping, getFileSHA, GetRawFormatLink

  /** The loop over acceptedHosts. */
  function Listed(hosts: seq<string>, h: string): (b: bool)
    ensures b <==> h in hosts
  {
    if hosts == [] then false
    else if hosts[0] == h then true
    else
      var b := Listed(hosts[1..], h);
      assert hosts == [hosts[0]] + hosts[1..];
      b
  }

  /** Accept: the URI parses, its scheme is "https" and its host is accepted. */
  function Accept(s: Setup, uri: string): (b: bool)
    ensures b <==> && s.platform.parse(uri).Success?
                   && s.platform.parse(uri).value.scheme == "https"
                   && s.platform.parse(uri).value.host in s.acceptedHosts
  {
    match s.platform.parse(uri)
    case Failure(_) => false
    case Success(u) => u.scheme == "https" && Listed(s.acceptedHosts, u.host)
  }

  /** The key local mappings are looked up by: the lowercased repository URL. */
  function RepoKey(r: Resource): string
  {
    ToLower(GetRepoURL(r))
  }

  /** checkForLocalMapping: the directory mapped to the repository, under its key or its key
      with a trailing slash; "" when there is none. */
  function LocalMapping(s: Setup, r: Resource): (local: string)
    ensures RepoKey(r) in s.localMappings ==> local == s.localMappings[RepoKey(r)]
    ensures RepoKey(r) !in s.localMappings && RepoKey(r) + "/" in s.localMappings ==>
      local == s.localMappings[RepoKey(r) + "/"]
    ensures RepoKey(r) !in s.localMappings && RepoKey(r) + "/" !in s.localMappings ==> local == ""
    ensures local != "" ==> local in s.localMappings.Values
  {
    var key := RepoKey(r);
    if key in s.localMappings then s.localMappings[key]
    else if key + "/" in s.localMappings then s.localMappings[key + "/"]
    else ""
  }

  /** Local mappings are found whatever the case of the repository URL. */
  lemma LocalMappingIgnoresCase(s: Setup, r: Resource, r': Resource)
    requires ToLower(GetRepoURL(r)) == ToLower(GetRepoURL(r'))
    ensures LocalMapping(s, r) == LocalMapping(s, r')
  {
  }

  /** getFileSHA */
  function GetFileSHA(cache: map<string, string>, key: string): (sha: Option<string>)
    ensures sha.Some? <==> key in cache
    ensures sha.Some? ==> sha.value == cache[key]
  {
    if key in cache then Some(cache[key]) else None
  }

  /** GetRawFormatLink: a link that parses to an absolute resource is printed in the raw
      form; any other link is returned as it is. */
  function GetRawFormatLink(s: Setup, absLink: string): (r: Result<string, Error>)
    ensures s.platform.parse(absLink).Failure? ==> r == Failure(Passed(s.platform.parse(absLink).error))
    ensures r.Success? && r.value != absLink ==>
      r.value == GetRawURL(NewResourceFromURL(s.platform.parse(absLink).value))
    // a relative link comes back as it is, an absolute one always in the raw form
    ensures s.platform.parse(absLink).Success? ==>
      var res := NewResourceFromURL(s.platform.parse(absLink).value);
      r == Success(if res.url.IsAbs() then GetRawURL(res) else absLink)
  {
    match NewResource(s.platform.parse(absLink))
    case Failure(e) => Failure(Passed(e))
    case Success(r) => if !r.url.IsAbs() then Success(absLink) else Success(GetRawURL(r))
  }

  /** A link printed from a resource is turned into the raw link of the same file. */
  lemma RawFormatOfResourceURL(s: Setup, link: string, u: Url, r: Resource)
    requires s.platform.parse(link) == Success(u) && u.IsAbs()
    requires PrintsBack(r) && u.text == GetResourceURL(r)
    ensures GetRawFormatLink(s, link) == Success(GetRawURL(r))
  {
    assert u.text == GetResourceURL(r) + "";
    ResourceURLRoundTrip(u, r, "");
  }

  /** The raw form is a fixed point: a raw link printed by GetRawURL is left as it is. */
  lemma RawFormatIdempotent(s: Setup, link: string, u: Url, r: Resource)
    requires s.platform.parse(link) == Success(u) && u.IsAbs()
    requires PrintsBack(r.(kind := "raw")) && u.text == GetRawURL(r) && link == u.text
    ensures GetRawFormatLink(s, link) == Success(link)
  {
    assert u.text == GetRawURL(r) + "";
    RawURLRoundTrip(u, r, "");
  }

  // ---------------------------------------------------------------------------------------
  // getDefaultBranch, getResolvedResourceInfo

  function BranchKey(owner: string, repo: string): string
  {
    owner + "/" + repo
  }

  /** getDefaultBranch: the memoised branch of `owner/repo`, or else the one GitHub names,
      which is then memoised. */
  function DefaultBranch(s: Setup, branches: map<string, string>, owner: string, repo: string)
    : (st: Step<string>)
    ensures BranchKey(owner, repo) in branches ==>
      st == Step(Success(branches[BranchKey(owner, repo)]), [], branches)
    ensures BranchKey(owner, repo) !in branches ==> st.calls == [GetRepository(owner, repo)]
    ensures st.result.Failure? ==> st.branches == branches
    ensures st.result.Success? ==>
      st.branches == branches[BranchKey(owner, repo) := st.result.value]
    ensures st.result.Success? && BranchKey(owner, repo) !in branches ==>
      st.result.value == s.api.repository(owner, repo).value
    ensures BranchKey(owner, repo) !in branches ==>
      st.result == (if s.api.repository(owner, repo).err.Some?
                    then Failure(Passed(s.api.repository(owner, repo).err.value))
                    else Success(s.api.repository(owner, repo).value))
  {
    var key := BranchKey(owner, repo);
    if key in branches then Step(Success(branches[key]), [], branches)
    else
      var reply := s.api.repository(owner, repo);
      if reply.err.Some? then Step(Failure(Passed(reply.err.value)), [GetRepository(owner, repo)], branches)
      else Step(Success(reply.value), [GetRepository(owner, repo)], branches[key := reply.value])
  }

  /** After a successful lookup the branch is memoised: asking again makes no call and
      gives the same branch. */
  lemma DefaultBranchMemoised(s: Setup, branches: map<string, string>, owner: string, repo: string)
    requires DefaultBranch(s, branches, owner, repo).result.Success?
    ensures var st := DefaultBranch(s, branches, owner, repo);
      DefaultBranch(s, st.branches, owner, repo) == Step(st.result, [], st.branches)
  {
  }

  /** The memo only grows, and a memoised branch never changes. */
  lemma DefaultBranchKeepsMemo(s: Setup, branches: map<string, string>, owner: string, repo: string)
    ensures var st := DefaultBranch(s, branches, owner, repo);
      forall k :: k in branches ==> k in st.branches && st.branches[k] == branches[k]
  {
  }

  /** Every memoised branch of a repository whose owner and name have no slash is the
      default branch GitHub named for it. */
  ghost predicate Faithful(api: Api, branches: map<string, string>)
  {
    forall owner, repo :: BranchKey(owner, repo) in branches && '/' !in owner && '/' !in repo ==>
      api.repository(owner, repo).err.None? && branches[BranchKey(owner, repo)] == api.repository(owner, repo).value
  }

  /** A key of slash-free owner and repository names is made of no other pair. */
  lemma BranchKeyUnique(owner: string, repo: string, owner': string, repo': string)
    requires '/' !in owner' && '/' !in repo'
    requires BranchKey(owner, repo) == BranchKey(owner', repo')
    ensures owner == owner' && repo == repo'
  {
    var key := BranchKey(owner, repo);
    assert key[|owner|] == '/' && key[|owner'|] == '/';
    assert owner == key[..|owner|] == owner';
    assert repo == key[|owner| + 1..] == repo';
  }

  /** getDefaultBranch keeps the memo faithful, and the branch it gives for a slash-free
      owner and repository is the one GitHub names. */
  lemma DefaultBranchFaithful(s: Setup, branches: map<string, string>, owner: string, repo: string)
    requires Faithful(s.api, branches)
    ensures Faithful(s.api, DefaultBranch(s, branches, owner, repo).branches)
    ensures var st := DefaultBranch(s, branches, owner, repo);
      st.result.Success? && '/' !in owner && '/' !in repo ==>
        s.api.repository(owner, repo).err.None? && st.result.value == s.api.repository(owner, repo).value
  {
    var st := DefaultBranch(s, branches, owner, repo);
    forall o, r | BranchKey(o, r) in st.branches && '/' !in o && '/' !in r
      ensures s.api.repository(o, r).err.None? && st.branches[BranchKey(o, r)] == s.api.repository(o, r).value
    {
      if BranchKey(o, r) !in branches {
        BranchKeyUnique(owner, repo, o, r);
      }
    }
  }

  /** getResolvedResourceInfo: the resource of the URI, with DEFAULT_BRANCH replaced by the
      repository's default branch. */
  function Resolve(s: Setup, branches: map<string, string>, uri: string): (st: Step<Resource>)
    ensures s.platform.parse(uri).Failure? ==>
      st == Step(Failure(Passed(s.platform.parse(uri).error)), [], branches)
    // only Ref changes
    ensures st.result.Success? ==>
      st.result.value == NewResourceFromURL(s.platform.parse(uri).value).(ref := st.result.value.ref)
    // and only when it is DEFAULT_BRANCH
    ensures s.platform.parse(uri).Success? ==>
      var r := NewResourceFromURL(s.platform.parse(uri).value);
      r.ref != DefaultBranchRef ==> st == Step(Success(r), [], branches)
    ensures s.platform.parse(uri).Success? ==>
      var r := NewResourceFromURL(s.platform.parse(uri).value);
      var d := DefaultBranch(s, branches, r.owner, r.repo);
      r.ref == DefaultBranchRef ==>
        && st.calls == d.calls && st.branches == d.branches
        && (d.result.Success? ==> st.result == Success(r.(ref := d.result.value)))
        && (d.result.Failure? ==> st.result == Failure(d.result.error))
  {
    match s.platform.parse(uri)
    case Failure(e) => Step(Failure(Passed(e)), [], branches)
    case Success(u) =>
      var r := NewResourceFromURL(u);
      if r.ref != DefaultBranchRef then Step(Success(r), [], branches)
      else
        var d := DefaultBranch(s, branches, r.owner, r.repo);
        match d.result
        case Failure(e) => Step(Failure(e), d.calls, d.branches)
        case Success(b) => Step(Success(r.(ref := b)), d.calls, d.branches)
  }

  // ---------------------------------------------------------------------------------------
  // Read, readLocalFile, downloadContent

  /** readLocalFile */
  function ReadLocalFile(s: Setup, r: Resource, local: string): (res: Result<Bytes, Error>)
    ensures res.Failure? ==>
      || res.error == NotFound(r.String())
      || res.error.LocalReadFailed?
    ensures var read := s.platform.readFile(s.platform.join(local, r.path));
      && (res.Success? <==> read.FileContent?)
      && (read.FileContent? ==> res.value == read.content)
      && (res == Failure(NotFound(r.String())) <==> read.ReadError? && read.notExist)
      && (read.ReadError? && !read.notExist ==>
            res == Failure(LocalReadFailed(s.platform.join(local, r.path), r.String(), read.message)))
  {
    var file := s.platform.join(local, r.path);
    match s.platform.readFile(file)
    case FileContent(b) => Success(b)
    case ReadError(notExist, message) =>
      if notExist then Failure(NotFound(r.String()))
      else Failure(LocalReadFailed(file, r.String(), message))
  }

  /** The result of a GetBlobRaw call: a 404 among errors is NotFound, other errors are
      passed on, and a failed HTTP status without an error is reported with `op`. */
  function BlobResult(reply: Reply<Bytes>, op: Op, uri: string): (res: Result<Bytes, Error>)
    ensures res.Success? <==> reply.err.None? && !reply.HttpFailed()
    ensures res.Success? ==> res.value == reply.value
    ensures reply.err.Some? && reply.StatusIs(404) ==> res == Failure(NotFound(uri))
    ensures reply.err.Some? && !reply.StatusIs(404) ==> res == Failure(Passed(reply.err.value))
    ensures reply.err.None? && reply.HttpFailed() ==> res == Failure(HttpStatus(op, uri, reply.status.value))
  {
    if reply.err.Some? then
      if reply.StatusIs(404) then Failure(NotFound(uri)) else Failure(Passed(reply.err.value))
    else if reply.HttpFailed() then Failure(HttpStatus(op, uri, reply.status.value))
    else Success(reply.value)
  }

  /** The first entry of a listing with the given name. */
  function FirstNamed(entries: seq<DirEntry>, name: string): (e: Option<DirEntry>)
    ensures e.None? <==> forall i :: 0 <= i < |entries| ==> entries[i].name != name
    ensures e.Some? ==> e.value.name == name
    ensures e.Some? ==>
      exists i :: 0 <= i < |entries| && entries[i] == e.value && (forall j :: 0 <= j < i ==> entries[j].name != name)
  {
    if entries == [] then None
    else if entries[0].name == name then
      Some(entries[0])
    else
      var e := FirstNamed(entries[1..], name);
      assert forall i :: 1 <= i < |entries| ==> entries[i] == entries[1..][i - 1];
      if e.Some? then
        var i :| 0 <= i < |entries[1..]| && entries[1..][i] == e.value
          && (forall j :: 0 <= j < i ==> entries[1..][j].name != name);
        assert entries[i + 1] == e.value;
        e
      else e
  }

  /** downloadContent: list the file's directory and read the blob of the first entry
      named like the file. */
  function Download(s: Setup, r: Resource): (o: Outcome<Bytes>)
    ensures |o.calls| >= 1 && o.calls[0] == GetContents(r.owner, r.repo, Dir(r.path), r.ref)
    ensures o.result.Success? ==>
      var listing := s.api.contents(r.owner, r.repo, Dir(r.path), r.ref);
      var e := FirstNamed(listing.value.dir, Base(r.path));
      && listing.err.None? && e.Some? && e.value.sha != ""
      && o.calls == [GetContents(r.owner, r.repo, Dir(r.path), r.ref), GetBlobRaw(r.owner, r.repo, e.value.sha)]
      && o.result.value == s.api.blob(r.owner, r.repo, e.value.sha).value
    ensures
      var listing := s.api.contents(r.owner, r.repo, Dir(r.path), r.ref);
      (listing.err.None? && FirstNamed(listing.value.dir, Base(r.path)).None?) ==>
        o.result == Failure(NotFound(r.String()))
  {
    var uri := r.String();
    var dir := Dir(r.path);
    var listing := s.api.contents(r.owner, r.repo, dir, r.ref);
    var list := GetContents(r.owner, r.repo, dir, r.ref);
    if listing.err.Some? then
      if listing.StatusIs(404) then Outcome(Failure(NotFound(uri)), [list])
      else Outcome(Failure(Passed(listing.err.value)), [list])
    else
      match FirstNamed(listing.value.dir, Base(r.path))
      case None => Outcome(Failure(NotFound(uri)), [list])
      case Some(e) =>
        if e.sha == "" then Outcome(Failure(NoSHA(uri)), [list])
        else
          var blob := s.api.blob(r.owner, r.repo, e.sha);
          Outcome(BlobResult(blob, ContentDownload, uri), [list, GetBlobRaw(r.owner, r.repo, e.sha)])
  }

  /** The error cases of downloadContent and the blob read it ends with. */
  lemma DownloadResults(s: Setup, r: Resource)
    ensures
      var listing := s.api.contents(r.owner, r.repo, Dir(r.path), r.ref);
      && (listing.err.Some? && listing.StatusIs(404) ==> Download(s, r).result == Failure(NotFound(r.String())))
      && (listing.err.Some? && !listing.StatusIs(404) ==> Download(s, r).result == Failure(Passed(listing.err.value)))
      && (listing.err.Some? ==> |Download(s, r).calls| == 1)
    ensures
      var listing := s.api.contents(r.owner, r.repo, Dir(r.path), r.ref);
      var e := FirstNamed(listing.value.dir, Base(r.path));
      && (listing.err.None? && e.Some? && e.value.sha == "" ==> Download(s, r) == Outcome(Failure(NoSHA(r.String())), [GetContents(r.owner, r.repo, Dir(r.path), r.ref)]))
      && (listing.err.None? && e.Some? && e.value.sha != "" ==>
            Download(s, r) == Outcome(BlobResult(s.api.blob(r.owner, r.repo, e.value.sha), ContentDownload, r.String()),
                         [GetContents(r.owner, r.repo, Dir(r.path), r.ref), GetBlobRaw(r.owner, r.repo, e.value.sha)]))
  {
  }

  /** Markdown files and manifests are read with GetContents, anything else is
      downloaded. */
  predicate ReadDirectly(path: string)
  {
    HasSuffix(ToLower(path), ".md") || HasSuffix(ToLower(path), ".yaml")
  }

  /** Read, once the resource is resolved. */
  function ReadResource(s: Setup, cache: map<string, string>, r: Resource): (o: Outcome<Bytes>)
    ensures r.kind != "blob" && r.kind != "raw" ==> o == Outcome(Failure(NotBlobOrRaw(r.String())), [])
    // a local mapping makes no remote call
    ensures LocalMapping(s, r) != "" ==> o.calls == []
    // a cached SHA makes exactly one GetBlobRaw
    ensures (r.kind == "blob" || r.kind == "raw") && LocalMapping(s, r) == "" && r.String() in cache ==>
      o.calls == [GetBlobRaw(r.owner, r.repo, cache[r.String()])]
    ensures ((r.kind == "blob" || r.kind == "raw") && LocalMapping(s, r) == "" && r.String() !in cache
             && !ReadDirectly(r.path)) ==> o == Download(s, r)
    ensures ((r.kind == "blob" || r.kind == "raw") && LocalMapping(s, r) == "" && r.String() !in cache
             && ReadDirectly(r.path)) ==>
      var reply := s.api.contents(r.owner, r.repo, r.path, r.ref);
      var get := GetContents(r.owner, r.repo, r.path, r.ref);
      && (reply.err.Some? && reply.StatusIs(404) ==> o == Outcome(Failure(NotFound(r.String())), [get]))
      && (reply.err.Some? && reply.StatusIs(403) ==>
            o == Outcome(Download(s, r).result, [get] + Download(s, r).calls))
      && (reply.err.None? && reply.HttpFailed() ==>
            o == Outcome(Failure(HttpStatus(ReadingBlob, r.String(), reply.status.value)), [get]))
      && (o.result.Success? && !reply.StatusIs(403) ==> reply.value.file == Success(o.result.value))
  {
    var uri := r.String();
    if r.kind != "blob" && r.kind != "raw" then Outcome(Failure(NotBlobOrRaw(uri)), [])
    else
      var local := LocalMapping(s, r);
      if |local| > 0 then Outcome(ReadLocalFile(s, r, local), [])
      else
        match GetFileSHA(cache, uri)
        case Some(sha) =>
          Outcome(BlobResult(s.api.blob(r.owner, r.repo, sha), ReadingBlob, uri), [GetBlobRaw(r.owner, r.repo, sha)])
        case None =>
          if !ReadDirectly(r.path) then Download(s, r)
          else
            var reply := s.api.contents(r.owner, r.repo, r.path, r.ref);
            var get := GetContents(r.owner, r.repo, r.path, r.ref);
            if reply.err.Some? then
              if reply.StatusIs(404) then Outcome(Failure(NotFound(uri)), [get])
              else if reply.StatusIs(403) then
                var d := Download(s, r);
                Outcome(d.result, [get] + d.calls)
              else Outcome(Failure(Passed(reply.err.value)), [get])
            else if reply.HttpFailed() then Outcome(Failure(HttpStatus(ReadingBlob, uri, reply.status.value)), [get])
            else
              match reply.value.file
              case Failure(e) => Outcome(Failure(Passed(e)), [get])
              case Success(b) => Outcome(Success(b), [get])
  }

  /** The remaining results of Read once resolved: the local file, the cached blob, and the
      other outcomes of reading the contents directly. */
  lemma ReadResourceResults(s: Setup, cache: map<string, string>, r: Resource)
    requires r.kind == "blob" || r.kind == "raw"
    ensures LocalMapping(s, r) != "" ==>
      ReadResource(s, cache, r) == Outcome(ReadLocalFile(s, r, LocalMapping(s, r)), [])
    ensures LocalMapping(s, r) == "" && r.String() in cache ==>
      ReadResource(s, cache, r) ==
        Outcome(BlobResult(s.api.blob(r.owner, r.repo, cache[r.String()]), ReadingBlob, r.String()),
                [GetBlobRaw(r.owner, r.repo, cache[r.String()])])
    ensures LocalMapping(s, r) == "" && r.String() !in cache && ReadDirectly(r.path) ==>
      var o := ReadResource(s, cache, r);
      var reply := s.api.contents(r.owner, r.repo, r.path, r.ref);
      var get := GetContents(r.owner, r.repo, r.path, r.ref);
      && (reply.err.Some? && !reply.StatusIs(403) && !reply.StatusIs(404) ==>
            o == Outcome(Failure(Passed(reply.err.value)), [get]))
      && (reply.err.None? && !reply.HttpFailed() && reply.value.file.Failure? ==>
            o == Outcome(Failure(Passed(reply.value.file.error)), [get]))
      && (reply.err.None? && !reply.HttpFailed() && reply.value.file.Success? ==>
            o == Outcome(Success(reply.value.file.value), [get]))
  {
  }

  /** Read */
  function Read(s: Setup, cache: map<string, string>, branches: map<string, string>, uri: string)
    : (st: Step<Bytes>)
  {
    var res := Resolve(s, branches, uri);
    match res.result
    case Failure(e) => Step(Failure(e), res.calls, res.branches)
    case Success(r) =>
      var o := ReadResource(s, cache, r);
      Step(o.result, res.calls + o.calls, res.branches)
  }

  // ---------------------------------------------------------------------------------------
  // determineLinkType

  /** The determined type, its error, the calls made and the file SHA cache after it. */
  datatype Typing = Typing(tp: string, err: Option<Error>, calls: seq<Call>, cache: map<string, string>)

  /** `scheme://host/owner/repo/kind/ref` followed by `relPath`. */
  function SourceURI(r: Resource, kind: string, relPath: string): string
  {
    r.url.scheme + "://" + r.url.host + "/" + r.owner + "/" + r.repo + "/" + kind + "/" + r.ref + relPath
  }

  /** The SHA cache after listing `entries`: each entry of type "blob" is stored under its
      HTML URL. */
  function CacheBlobs(cache: map<string, string>, entries: seq<DirEntry>): (c: map<string, string>)
    decreases |entries|
  {
    if entries == [] then cache
    else
      var before := CacheBlobs(cache, entries[..|entries| - 1]);
      var d := entries[|entries| - 1];
      if d.kind == "blob" then before[d.htmlUrl := d.sha] else before
  }

  /** One more entry of the listing: a blob is stored over what the earlier ones left. */
  lemma CacheBlobsStep(cache: map<string, string>, entries: seq<DirEntry>, i: nat)
    requires i < |entries|
    ensures CacheBlobs(cache, entries[..i + 1]) ==
      var before := CacheBlobs(cache, entries[..i]);
      if entries[i].kind == "blob" then before[entries[i].htmlUrl := entries[i].sha] else before
  {
    assert entries[..i + 1][..i] == entries[..i];
  }

  /** A blob entry of the listing with this HTML URL. */
  predicate ListsBlob(entries: seq<DirEntry>, url: string)
  {
    exists i :: 0 <= i < |entries| && entries[i].kind == "blob" && entries[i].htmlUrl == url
  }

  /** Entry `i` is a blob and no later blob entry has its HTML URL. */
  predicate LastBlobWithURL(entries: seq<DirEntry>, i: int)
    requires 0 <= i < |entries|
  {
    entries[i].kind == "blob" &&
    forall j :: i < j < |entries| ==> entries[j].kind != "blob" || entries[j].htmlUrl != entries[i].htmlUrl
  }

  lemma ListsBlobInit(entries: seq<DirEntry>, k: string)
    requires entries != []
    ensures ListsBlob(entries, k) <==>
      ListsBlob(entries[..|entries| - 1], k)
      || (entries[|entries| - 1].kind == "blob" && entries[|entries| - 1].htmlUrl == k)
  {
    var init := entries[..|entries| - 1];
    if ListsBlob(init, k) {
      var i :| 0 <= i < |init| && init[i].kind == "blob" && init[i].htmlUrl == k;
      assert entries[i] == init[i];
    }
    if ListsBlob(entries, k) {
      var i :| 0 <= i < |entries| && entries[i].kind == "blob" && entries[i].htmlUrl == k;
      if i < |init| {
        assert init[i] == entries[i];
      }
    }
  }

  /** Listing adds the HTML URLs of the blob entries to the cache, and no other key. */
  lemma {:induction false} CacheBlobsKeys(cache: map<string, string>, entries: seq<DirEntry>)
    ensures forall k :: k in CacheBlobs(cache, entries) <==> k in cache || ListsBlob(entries, k)
    decreases |entries|
  {
    if entries != [] {
      CacheBlobsKeys(cache, entries[..|entries| - 1]);
      forall k ensures k in CacheBlobs(cache, entries) <==> k in cache || ListsBlob(entries, k) {
        ListsBlobInit(entries, k);
      }
    }
  }

  /** An entry no blob of the listing names keeps its SHA. */
  lemma {:induction false} CacheBlobsKeeps(cache: map<string, string>, entries: seq<DirEntry>, k: string)
    requires k in cache && !ListsBlob(entries, k)
    ensures k in CacheBlobs(cache, entries) && CacheBlobs(cache, entries)[k] == cache[k]
    decreases |entries|
  {
    if entries != [] {
      ListsBlobInit(entries, k);
      CacheBlobsKeeps(cache, entries[..|entries| - 1], k);
    }
  }

  /** A blob's HTML URL maps to the SHA of the last blob entry with that URL. */
  lemma {:induction false} CacheBlobsStores(cache: map<string, string>, entries: seq<DirEntry>, i: nat)
    requires i < |entries| && LastBlobWithURL(entries, i)
    ensures entries[i].htmlUrl in CacheBlobs(cache, entries)
    ensures CacheBlobs(cache, entries)[entries[i].htmlUrl] == entries[i].sha
    decreases |entries|
  {
    var init := entries[..|entries| - 1];
    if i < |init| {
      assert init[i] == entries[i];
      assert LastBlobWithURL(init, i) by {
        forall j | i < j < |init| ensures init[j].kind != "blob" || init[j].htmlUrl != init[i].htmlUrl {
          assert init[j] == entries[j];
        }
      }
      CacheBlobsStores(cache, init, i);
    }
  }

  /** The type the listing gives `name`: the last entry with that name decides, "blob" for
      a "file" and "tree" for anything else; "" when no entry has the name. */
  function TypeOf(entries: seq<DirEntry>, name: string): (tp: string)
    ensures tp == "" || tp == "blob" || tp == "tree"
    decreases |entries|
  {
    if entries == [] then ""
    else
      var d := entries[|entries| - 1];
      if d.name == name then (if d.kind == "file" then "blob" else "tree")
      else TypeOf(entries[..|entries| - 1], name)
  }

  /** One more entry of the listing: it decides the type when it has the name. */
  lemma TypeOfStep(entries: seq<DirEntry>, name: string, i: nat)
    requires i < |entries|
    ensures TypeOf(entries[..i + 1], name) ==
      if entries[i].name == name then (if entries[i].kind == "file" then "blob" else "tree")
      else TypeOf(entries[..i], name)
  {
    assert entries[..i + 1][..i] == entries[..i];
  }

  lemma {:induction false} TypeOfLastNamed(entries: seq<DirEntry>, name: string)
    ensures TypeOf(entries, name) == "" <==> forall i :: 0 <= i < |entries| ==> entries[i].name != name
    ensures TypeOf(entries, name) != "" ==>
      exists i :: 0 <= i < |entries| && entries[i].name == name
        && (forall j :: i < j < |entries| ==> entries[j].name != name)
        && (TypeOf(entries, name) == "blob" <==> entries[i].kind == "file")
    decreases |entries|
  {
    if entries != [] {
      var init := entries[..|entries| - 1];
      TypeOfLastNamed(init, name);
      forall i | 0 <= i < |init| ensures entries[i] == init[i] { }
      if entries[|entries| - 1].name != name && TypeOf(init, name) != "" {
        var i :| 0 <= i < |init| && init[i].name == name
          && (forall j :: i < j < |init| ==> init[j].name != name)
          && (TypeOf(init, name) == "blob" <==> init[i].kind == "file");
        assert entries[i] == init[i];
      }
    }
  }

  /** determineLinkType for the link path `relPath` resolved against `source`. */
  function LinkType(s: Setup, cache: map<string, string>, source: Resource, relPath: string): (t: Typing)
    // the expected URI names a blob exactly when the path has an extension
    ensures t.err.Some? && t.tp != "" ==>
      t.tp == SourceURI(source, if Ext(relPath) != "" then "blob" else "tree", relPath)
    ensures t.err.None? ==> t.tp == "blob" || t.tp == "tree"
    // locally: Lstat decides, and nothing remote happens
    ensures LocalMapping(s, source) != "" ==> t.calls == [] && t.cache == cache
    ensures
      var stat := s.platform.lstat(s.platform.join(LocalMapping(s, source), relPath));
      (LocalMapping(s, source) != "" && stat.Stat?) ==> t.err.None? && (t.tp == "tree" <==> stat.isDir)
    // a cached blob needs no listing
    ensures LocalMapping(s, source) == "" && SourceURI(source, "blob", relPath) in cache ==>
      t == Typing("blob", None, [], cache)
    // otherwise the directory is listed once, and only its blobs enter the cache
    ensures LocalMapping(s, source) == "" && SourceURI(source, "blob", relPath) !in cache ==>
      var listing := s.api.contents(source.owner, source.repo, Dir(relPath), source.ref);
      && t.calls == [GetContents(source.owner, source.repo, Dir(relPath), source.ref)]
      && (listing.err.Some? ==> t.cache == cache)
      && (listing.err.Some? && listing.StatusIs(404) ==>
            t.err == Some(NotFound(SourceURI(source, "tree", Dir(relPath)))))
      && (listing.err.None? ==> t.cache == CacheBlobs(cache, listing.value.dir))
      && (listing.err.None? ==>
            var tp := TypeOf(listing.value.dir, Base(relPath));
            && (tp != "" ==> t == Typing(tp, None, t.calls, t.cache))
            && (tp == "" ==> t.err == Some(NotFound(SourceURI(source, if Ext(relPath) != "" then "blob" else "tree", relPath)))))
  {
    var gtp := if |Ext(relPath)| > 0 then "blob" else "tree";
    var expURI := SourceURI(source, gtp, relPath);
    var local := LocalMapping(s, source);
    if |local| > 0 then
      match s.platform.lstat(s.platform.join(local, relPath))
      case StatError(notExist, message) =>
        if notExist then Typing(expURI, Some(NotFound(expURI)), [], cache)
        else Typing("", Some(TypeUndetermined(relPath, source.String(), message)), [], cache)
      case Stat(isDir) => Typing(if isDir then "tree" else "blob", None, [], cache)
    else if GetFileSHA(cache, SourceURI(source, "blob", relPath)).Some? then Typing("blob", None, [], cache)
    else
      var dir := Dir(relPath);
      var listing := s.api.contents(source.owner, source.repo, dir, source.ref);
      var list := [GetContents(source.owner, source.repo, dir, source.ref)];
      if listing.err.Some? then
        if listing.StatusIs(404) then Typing(expURI, Some(NotFound(SourceURI(source, "tree", dir))), list, cache)
        else Typing("", Some(TypeUndetermined(relPath, source.String(), listing.err.value)), list, cache)
      else
        var tp := TypeOf(listing.value.dir, Base(relPath));
        var after := CacheBlobs(cache, listing.value.dir);
        if tp == "" then Typing(expURI, Some(NotFound(expURI)), list, after)
        else Typing(tp, None, list, after)
  }

  /** The error cases of determineLinkType, each with the typing it gives. */
  lemma LinkTypeErrors(s: Setup, cache: map<string, string>, source: Resource, relPath: string)
    ensures
      var t := LinkType(s, cache, source, relPath);
      var stat := s.platform.lstat(s.platform.join(LocalMapping(s, source), relPath));
      var expURI := SourceURI(source, if Ext(relPath) != "" then "blob" else "tree", relPath);
      // a missing local target is NotFound of the expected URI, other Lstat errors leave it undetermined
      && (LocalMapping(s, source) != "" && stat.StatError? && stat.notExist ==>
            t == Typing(expURI, Some(NotFound(expURI)), [], cache))
      && (LocalMapping(s, source) != "" && stat.StatError? && !stat.notExist ==>
            t == Typing("", Some(TypeUndetermined(relPath, source.String(), stat.message)), [], cache))
    ensures
      var t := LinkType(s, cache, source, relPath);
      var listing := s.api.contents(source.owner, source.repo, Dir(relPath), source.ref);
      var expURI := SourceURI(source, if Ext(relPath) != "" then "blob" else "tree", relPath);
      LocalMapping(s, source) == "" && SourceURI(source, "blob", relPath) !in cache ==>
        // a missing directory still names the expected URI, other listing errors none
        && (listing.err.Some? && listing.StatusIs(404) ==>
              t == Typing(expURI, Some(NotFound(SourceURI(source, "tree", Dir(relPath)))), t.calls, cache))
        && (listing.err.Some? && !listing.StatusIs(404) ==>
              t == Typing("", Some(TypeUndetermined(relPath, source.String(), listing.err.value)), t.calls, cache))
        // no entry with the link's name: NotFound of the expected URI, the blobs still cached
        && (listing.err.None? && TypeOf(listing.value.dir, Base(relPath)) == "" ==>
              t == Typing(expURI, Some(NotFound(expURI)), t.calls, CacheBlobs(cache, listing.value.dir)))
  {
  }

  // ---------------------------------------------------------------------------------------
  // FileTreeFromURL, readLocalFileTree

  /** The loop over ExtractedFilesFormats: `path` ends with one of the formats. */
  function EndsWithAny(path: string, formats: seq<string>): (b: bool)
    ensures b <==> exists k :: 0 <= k < |formats| && HasSuffix(path, formats[k])
  {
    if formats == [] then false
    else if HasSuffix(path, formats[0]) then true
    else
      var b := EndsWithAny(path, formats[1..]);
      assert forall k :: 1 <= k < |formats| ==> formats[k] == formats[1..][k - 1];
      b
  }

  /** A tree entry is extracted when it is a blob whose path, without a leading slash and
      lowercased, ends with one of the formats. */
  predicate IsExtracted(e: TreeEntry, formats: seq<string>)
  {
    e.kind == "blob" && EndsWithAny(ToLower(TrimPrefix(e.path, "/")), formats)
  }

  /** The paths, without a leading slash, of the extracted entries, in tree order. */
  function ExtractedPaths(entries: seq<TreeEntry>, formats: seq<string>): (ps: seq<string>)
    ensures |ps| <= |entries|
    decreases |entries|
  {
    if entries == [] then []
    else
      var before := ExtractedPaths(entries[..|entries| - 1], formats);
      var e := entries[|entries| - 1];
      if IsExtracted(e, formats) then before + [TrimPrefix(e.path, "/")] else before
  }

  /** A path is listed exactly when some extracted entry has it. */
  lemma {:induction false} ExtractedPathsMembers(entries: seq<TreeEntry>, formats: seq<string>)
    ensures forall p :: p in ExtractedPaths(entries, formats) <==>
      exists i :: 0 <= i < |entries| && IsExtracted(entries[i], formats) && p == TrimPrefix(entries[i].path, "/")
    decreases |entries|
  {
    if entries != [] {
      var init := entries[..|entries| - 1];
      ExtractedPathsMembers(init, formats);
      forall i | 0 <= i < |init| ensures entries[i] == init[i] { }
      forall p | p in ExtractedPaths(entries, formats)
        ensures exists i :: 0 <= i < |entries| && IsExtracted(entries[i], formats) && p == TrimPrefix(entries[i].path, "/")
      {
        if p in ExtractedPaths(init, formats) {
          var i :| 0 <= i < |init| && IsExtracted(init[i], formats) && p == TrimPrefix(init[i].path, "/");
          assert entries[i] == init[i];
        } else {
          assert IsExtracted(entries[|entries| - 1], formats);
        }
      }
    }
  }

  /** readLocalFileTree over the files filepath.Walk visits: the markdown files, relative to
      the walked directory. */
  function LocalFileTree(s: Setup, r: Resource, local: string): (files: seq<string>)
  {
    var dirPath := s.platform.join(local, r.path);
    MarkdownFiles(s.platform.walk(dirPath), dirPath)
  }

  /** `f` is, relative to `dirPath`, a visited markdown file that is not a directory. */
  predicate IsMarkdownFileOf(entries: seq<WalkEntry>, dirPath: string, f: string)
  {
    exists i :: 0 <= i < |entries| && !entries[i].isDir && HasSuffix(entries[i].path, ".md")
      && f == TrimPrefix(TrimPrefix(entries[i].path, dirPath), "/")
  }

  function MarkdownFiles(entries: seq<WalkEntry>, dirPath: string): (files: seq<string>)
    ensures |files| <= |entries|
    ensures forall f :: f in files <==> IsMarkdownFileOf(entries, dirPath, f)
    decreases |entries|
  {
    if entries == [] then []
    else
      var init := entries[..|entries| - 1];
      var before := MarkdownFiles(init, dirPath);
      assert forall i :: 0 <= i < |init| ==> init[i] == entries[i];
      var e := entries[|entries| - 1];
      if !e.isDir && HasSuffix(e.path, ".md") then before + [TrimPrefix(TrimPrefix(e.path, dirPath), "/")]
      else before
  }

  /** FileTreeFromURL, once the resource is resolved. */
  function FileTreeOf(s: Setup, r: Resource): (o: Outcome<seq<string>>)
    ensures r.kind != "tree" ==> o == Outcome(Failure(NotTree(r.String())), [])
    ensures r.kind == "tree" && LocalMapping(s, r) != "" ==>
      o == Outcome(Success(LocalFileTree(s, r, LocalMapping(s, r))), [])
    ensures r.kind == "tree" && LocalMapping(s, r) == "" ==>
      var sha := s.platform.escape(r.ref + ":" + r.path);
      var reply := s.api.tree(r.owner, r.repo, sha);
      && o.calls == [GetTree(r.owner, r.repo, sha)]
      // a 404 is NotFound, whatever else the reply says
      && (reply.StatusIs(404) ==> o.result == Failure(NotFound(r.String())))
      && (!reply.StatusIs(404) && reply.HttpFailed() ==>
            o.result == Failure(HttpStatus(ReadingTree, r.String(), reply.status.value)))
      && (!reply.HttpFailed() && reply.err.Some? ==> o.result == Failure(Passed(reply.err.value)))
      && (!reply.HttpFailed() && reply.err.None? ==>
            o.result == Success(ExtractedPaths(reply.value, s.extractedFormats)))
      && (o.result.Success? ==>
            reply.err.None? && !reply.HttpFailed() && o.result.value == ExtractedPaths(reply.value, s.extractedFormats))
  {
    if r.kind != "tree" then Outcome(Failure(NotTree(r.String())), [])
    else
      var local := LocalMapping(s, r);
      if |local| > 0 then Outcome(Success(LocalFileTree(s, r, local)), [])
      else
        var sha := s.platform.escape(r.ref + ":" + r.path);
        var reply := s.api.tree(r.owner, r.repo, sha);
        var get := [GetTree(r.owner, r.repo, sha)];
        if reply.StatusIs(404) then Outcome(Failure(NotFound(r.String())), get)
        else if reply.HttpFailed() then Outcome(Failure(HttpStatus(ReadingTree, r.String(), reply.status.value)), get)
        else if reply.err.Some? then Outcome(Failure(Passed(reply.err.value)), get)
        else Outcome(Success(ExtractedPaths(reply.value, s.extractedFormats)), get)
  }

  // ---------------------------------------------------------------------------------------
  // ToAbsLink

  /** The link ToAbsLink returns, its error, the calls made, and both caches after it. */
  datatype Linked = Linked(link: string, err: Option<Error>, calls: seq<Call>,
                           branches: map<string, string>, cache: map<string, string>)

  /** The path of an absolute link: /Owner/Repo/type/Ref followed by the resolved path. */
  function AbsLinkPath(r: Resource, tp: string, upath: string): string
  {
    "/" + r.owner + "/" + r.repo + "/" + tp + "/" + r.ref + upath
  }

  /** ToAbsLink once the source resource `r` and the link text are known: a link that
      parses as absolute is kept; otherwise its path is resolved against the source's, typed,
      and put in the source's URL with the link's query and fragment. */
  function AbsLinkFrom(s: Setup, cache: map<string, string>, branches: map<string, string>,
                       calls: seq<Call>, r: Resource, link: string): (l: Linked)
    ensures l.branches == branches
    // a link that does not parse is returned with the parse error
    ensures s.platform.parse(TrimSuffix(link, "/")).Failure? ==>
      l == Linked(link, Some(Passed(s.platform.parse(TrimSuffix(link, "/")).error)), calls, branches, cache)
    // a link that is already absolute is returned as it is
    ensures
      var parsed := s.platform.parse(TrimSuffix(link, "/"));
      (parsed.Success? && parsed.value.IsAbs()) ==> l == Linked(link, None, calls, branches, cache)
    ensures
      var parsed := s.platform.parse(TrimSuffix(link, "/"));
      (parsed.Success? && !parsed.value.IsAbs() && s.platform.resolve(r.path, parsed.value.path).Success?) ==>
        var lu := parsed.value;
        var upath := s.platform.resolve(r.path, lu.path).value;
        var t := LinkType(s, cache, r, upath);
        // when typing fails, the string determineLinkType returned is returned
        && (t.err.Some? ==> l == Linked(t.tp, t.err, calls + t.calls, branches, t.cache))
        // otherwise the path is /Owner/Repo/type/Ref/path, with the link's query and fragment
        && (t.err.None? && s.platform.parse(r.url.text).Success? ==>
              var u := s.platform.parse(r.url.text).value.(
                path := AbsLinkPath(r, t.tp, upath), forceQuery := lu.forceQuery,
                rawQuery := lu.rawQuery, fragment := lu.fragment);
              l == Linked(s.platform.format(u), None, calls + t.calls, branches, t.cache))
        // a source URL that does not parse again gives "", not the link
        && (t.err.None? && s.platform.parse(r.url.text).Failure? ==>
              l == Linked("", Some(Passed(s.platform.parse(r.url.text).error)), calls + t.calls, branches, t.cache))
    // a link path that does not resolve against the source's is returned with that error
    ensures
      var parsed := s.platform.parse(TrimSuffix(link, "/"));
      (parsed.Success? && !parsed.value.IsAbs() && s.platform.resolve(r.path, parsed.value.path).Failure?) ==>
        l == Linked(link, Some(Passed(s.platform.resolve(r.path, parsed.value.path).error)), calls, branches, cache)
  {
    match s.platform.parse(TrimSuffix(link, "/"))
    case Failure(e) => Linked(link, Some(Passed(e)), calls, branches, cache)
    case Success(lu) =>
      if lu.IsAbs() then Linked(link, None, calls, branches, cache)
      else
        match s.platform.resolve(r.path, lu.path)
        case Failure(e) => Linked(link, Some(Passed(e)), calls, branches, cache)
        case Success(upath) =>
          var t := LinkType(s, cache, r, upath);
          if t.err.Some? then Linked(t.tp, t.err, calls + t.calls, branches, t.cache)
          else
            match s.platform.parse(r.url.text)
            case Failure(e) => Linked("", Some(Passed(e)), calls + t.calls, branches, t.cache)
            case Success(res) =>
              var u := res.(path := AbsLinkPath(r, t.tp, upath), forceQuery := lu.forceQuery,
                            rawQuery := lu.rawQuery, fragment := lu.fragment);
              Linked(s.platform.format(u), None, calls + t.calls, branches, t.cache)
  }

  /** The calls AbsLinkFrom records follow the ones it is given. */
  lemma AbsLinkFromPrefix(s: Setup, cache: map<string, string>, branches: map<string, string>,
                          calls: seq<Call>, r: Resource, link: string)
    ensures var l := AbsLinkFrom(s, cache, branches, [], r, link);
      AbsLinkFrom(s, cache, branches, calls, r, link) == l.(calls := calls + l.calls)
  {
  }

  /** ToAbsLink: the source is resolved; a link starting with "http" is first replaced by
      the URL of its own resolved resource. */
  function ToAbsLink(s: Setup, cache: map<string, string>, branches: map<string, string>,
                     source: string, link: string): (l: Linked)
    ensures Resolve(s, branches, source).result.Failure? ==>
      var src := Resolve(s, branches, source);
      l == Linked(link, Some(src.result.error), src.calls, src.branches, cache)
    ensures Resolve(s, branches, source).result.Success? && !HasPrefix(link, "http") ==>
      var src := Resolve(s, branches, source);
      l == AbsLinkFrom(s, cache, src.branches, src.calls, src.result.value, link)
    ensures Resolve(s, branches, source).result.Success? && HasPrefix(link, "http") ==>
      var src := Resolve(s, branches, source);
      var lr := Resolve(s, src.branches, link);
      && (lr.result.Failure? ==> l == Linked(link, Some(lr.result.error), src.calls + lr.calls, lr.branches, cache))
      && (lr.result.Success? ==>
            l == AbsLinkFrom(s, cache, lr.branches, src.calls + lr.calls, src.result.value, lr.result.value.String()))
      // an http link that resolves to an absolute URL comes back as that URL, with no error
      && (lr.result.Success? && s.platform.parse(TrimSuffix(lr.result.value.String(), "/")).Success?
          && s.platform.parse(TrimSuffix(lr.result.value.String(), "/")).value.IsAbs() ==>
            l.link == lr.result.value.String() && l.err.None? && l.cache == cache)
  {
    var src := Resolve(s, branches, source);
    match src.result
    case Failure(e) => Linked(link, Some(e), src.calls, src.branches, cache)
    case Success(r) =>
      if HasPrefix(link, "http") then
        var lr := Resolve(s, src.branches, link);
        match lr.result
        case Failure(e) => Linked(link, Some(e), src.calls + lr.calls, lr.branches, cache)
        case Success(target) => AbsLinkFrom(s, cache, lr.branches, src.calls + lr.calls, r, target.String())
      else AbsLinkFrom(s, cache, src.branches, src.calls, r, link)
  }
}

=== FILE: go_strings.dfy ===
/** The few functions of Go's `strings` and `path` packages that the GitHub host relies on,
    over `string` (a sequence of characters). `ToLower` folds ASCII letters only, and
    `Dir` cleans only trailing slashes (see README, "Left out"). */
module GoStrings {

  /** `sub` occurs in `s` starting at index `i`. */
  predicate OccursAt(s: string, sub: string, i: int)
  {
    0 <= i && i + |sub| <= |s| && s[i..i + |sub|] == sub
  }

  /** strings.HasPrefix */
  predicate HasPrefix(s: string, prefix: string)
  {
    OccursAt(s, prefix, 0)
  }

  /** strings.HasSuffix */
  predicate HasSuffix(s: string, suffix: string)
  {
    |suffix| <= |s| && s[|s| - |suffix|..] == suffix
  }

  /** strings.Contains: `sub` occurs somewhere in `s`. */
  function Contains(s: string, sub: string): (b: bool)
    ensures b <==> exists i :: OccursAt(s, sub, i)
    decreases |s|
  {
    if HasPrefix(s, sub) then true
    else if s == [] then false
    else
      var b := Contains(s[1..], sub);
      assert b ==> exists i :: OccursAt(s, sub, i) by {
        if b {
          var i :| OccursAt(s[1..], sub, i);
          assert s[1..][i..i + |sub|] == s[i + 1..i + 1 + |sub|];
          assert OccursAt(s, sub, i + 1);
        }
      }
      assert (exists i :: OccursAt(s, sub, i)) ==> b by {
        if exists i :: OccursAt(s, sub, i) {
          var i :| OccursAt(s, sub, i);
          assert i != 0;
          assert s[1..][i - 1..i - 1 + |sub|] == s[i..i + |sub|];
          assert OccursAt(s[1..], sub, i - 1);
        }
      }
      b
  }

  /** strings.Split(s, sep)[0] for a non-empty separator: the text before the first
      occurrence of `sep`, or all of `s` when `sep` does not occur. */
  function TextBefore(s: string, sep: string): (r: string)
    requires sep != ""
    ensures |r| <= |s| && r == s[..|r|]
    ensures forall i :: 0 <= i < |r| ==> !OccursAt(s, sep, i)
    ensures r == s || OccursAt(s, sep, |r|)
    decreases |s|
  {
    if HasPrefix(s, sep) then ""
    else if s == [] then ""
    else
      var t := TextBefore(s[1..], sep);
      assert forall i :: 1 <= i <= |s| - |sep| ==> (OccursAt(s, sep, i) <==> OccursAt(s[1..], sep, i - 1)) by {
        forall i | 1 <= i <= |s| - |sep| ensures OccursAt(s, sep, i) <==> OccursAt(s[1..], sep, i - 1) {
          assert s[1..][i - 1..i - 1 + |sep|] == s[i..i + |sep|];
        }
      }
      [s[0]] + t
  }

  /** strings.TrimPrefix */
  function TrimPrefix(s: string, prefix: string): (r: string)
    ensures HasPrefix(s, prefix) ==> prefix + r == s
    ensures !HasPrefix(s, prefix) ==> r == s
  {
    if HasPrefix(s, prefix) then s[|prefix|..] else s
  }

  /** strings.TrimSuffix */
  function TrimSuffix(s: string, suffix: string): (r: string)
    ensures HasSuffix(s, suffix) ==> r + suffix == s
    ensures !HasSuffix(s, suffix) ==> r == s
  {
    if HasSuffix(s, suffix) then s[..|s| - |suffix|] else s
  }

  function LowerChar(c: char): char
  {
    if 'A' <= c <= 'Z' then (c as int + 32) as char else c
  }

  /** strings.ToLower, on ASCII letters. */
  function ToLower(s: string): (r: string)
    ensures |r| == |s|
    ensures forall i :: 0 <= i < |s| ==> r[i] == LowerChar(s[i])
  {
    seq(|s|, i requires 0 <= i < |s| => LowerChar(s[i]))
  }

  lemma ToLowerAppend(a: string, b: string)
    ensures ToLower(a + b) == ToLower(a) + ToLower(b)
  {
  }

  /** Start of the last slash-separated element of `p[..n]`: one past the last '/' before `n`. */
  function ElementStart(p: string, n: nat): (k: nat)
    requires n <= |p|
    ensures k <= n
    ensures '/' !in p[k..n]
    ensures k == 0 || p[k - 1] == '/'
    decreases n
  {
    if n == 0 || p[n - 1] == '/' then n
    else
      var k := ElementStart(p, n - 1);
      assert p[k..n] == p[k..n - 1] + [p[n - 1]];
      k
  }

  /** path.Ext scanning backwards from index `n`. */
  function ExtBefore(p: string, n: nat): (e: string)
    requires n <= |p|
    ensures e == "" <==> '.' !in p[ElementStart(p, n)..n]
    ensures e != "" ==> e[0] == '.' && HasSuffix(p, e)
    decreases n
  {
    if n == 0 || p[n - 1] == '/' then ""
    else
      var k := ElementStart(p, n);
      assert k == ElementStart(p, n - 1);
      assert p[k..n] == p[k..n - 1] + [p[n - 1]];
      if p[n - 1] == '.' then
        assert p[k..n][n - 1 - k] == '.';
        p[n - 1..]
      else
        ExtBefore(p, n - 1)
  }

  /** path.Ext: the suffix of the last element that starts at its last dot, or "". */
  function Ext(p: string): (e: string)
    ensures e == "" <==> '.' !in p[ElementStart(p, |p|)..]
    ensures e != "" ==> e[0] == '.' && HasSuffix(p, e)
  {
    ExtBefore(p, |p|)
  }

  function TrimTrailingSlashes(p: string): (r: string)
    ensures |r| <= |p| && r == p[..|r|]
    ensures r == "" || r[|r| - 1] != '/'
    ensures forall i :: |r| <= i < |p| ==> p[i] == '/'
  {
    if p != [] && p[|p| - 1] == '/' then TrimTrailingSlashes(p[..|p| - 1]) else p
  }

  /** path.Base: the last element of `p`, ignoring trailing slashes. */
  function Base(p: string): (b: string)
    ensures b != ""
    ensures '/' in b ==> b == "/"
  {
    if p == "" then "."
    else
      var t := TrimTrailingSlashes(p);
      if t == "" then "/" else t[ElementStart(t, |t|)..]
  }

  /** What Base gives: "." for the empty path, "/" for a path of slashes only, and
      otherwise the slash-free tail of `p` without its trailing slashes, cut right after
      a slash or at the start. */
  lemma BaseLastElement(p: string)
    ensures p == "" ==> Base(p) == "."
    ensures p != "" && TrimTrailingSlashes(p) == "" ==> Base(p) == "/"
    ensures TrimTrailingSlashes(p) != "" ==>
      var t, b := TrimTrailingSlashes(p), Base(p);
      && '/' !in b && HasSuffix(t, b)
      && (|b| == |t| || t[|t| - |b| - 1] == '/')
  {
  }

  /** path.Dir: everything before the last element, cleaned of trailing slashes. */
  function Dir(p: string): (d: string)
    ensures d != ""
  {
    var head := p[..ElementStart(p, |p|)];
    if head == "" then "."
    else
      var t := TrimTrailingSlashes(head);
      if t == "" then "/" else t
  }
  /** What Dir gives: "." for a path without a slash; otherwise the last element follows
      the last slash, and Dir is the path before it without its trailing slashes, or "/"
      when only slashes precede it. */
  lemma DirParent(p: string)
    ensures '/' !in p ==> Dir(p) == "."
    ensures '/' in p ==>
      var d, k := Dir(p), ElementStart(p, |p|);
      && 0 < k && p[k - 1] == '/' && '/' !in p[k..]
      && (d == "/" <==> forall i :: 0 <= i < k ==> p[i] == '/')
      && (d != "/" ==> HasPrefix(p, d) && d[|d| - 1] != '/' && forall i :: |d| <= i < k ==> p[i] == '/')
  {
    var k := ElementStart(p, |p|);
    if '/' !in p {
      assert k == 0;
      assert p[..k] == "";
    } else {
      assert 0 < k;
      assert p[k..] == p[k..|p|];
      var head := p[..k];
      var t := TrimTrailingSlashes(head);
      if t == "" {
        assert forall i :: 0 <= i < k ==> p[i] == head[i];
      } else {
        assert t[|t| - 1] == head[|t| - 1] == p[|t| - 1];
        assert Dir(p) == t;
        assert p[..|t|] == t;
      }
    }
  }

}

=== FILE: link.dfy ===
/** GitHub resource URLs (pkg/readers/link/resource_link.go): parsing a URL into host, owner,
    repository, type, ref and path with four prioritised, unanchored regular expressions, and
    printing the three URL forms back. Each regular expression is modelled as a matcher at a
    start position; `FindFrom` tries the start positions from left to right, as Go's
    FindStringSubmatch does. */
module Link {
  import opened Wrappers
  import opened GoStrings

  /** The parts of a parsed URL (Go's url.URL) that the model reads. `text` is what
      URL.String() prints; url.Parse itself is not part of this model. */
  datatype Url = Url(scheme: string, host: string, path: string, rawQuery: string,
                     forceQuery: bool, fragment: string, text: string)
  {
    predicate IsAbs() { scheme != "" }
  }

  const NoUrl := Url("", "", "", "", false, "", "")

  /** A GitHub resource; `kind` is the Type field (`blob`, `tree`, `raw`, ...). */
  datatype Resource = Resource(url: Url, host: string, owner: string, repo: string,
                               kind: string, ref: string, path: string)
  {
    /** Resource.String(), promoted from the embedded url.URL. */
    function String(): string { url.text }
  }

  const ZeroResource := Resource(NoUrl, "", "", "", "", "", "")

  const Https := "https://"
  /** The regular expression text after "https://" in the githubusercontent pattern;
      its two dots are wildcards. */
  const UserContentHost := "raw" + "." + "githubusercontent" + "." + "com"

  predicate IsMark(c: char) { c == '?' || c == '#' }

  /** A string `([^/]+)` can capture. */
  predicate IsSegment(x: string) { x != "" && '/' !in x }

  /** A string `([^\?#]+)` can capture. */
  predicate IsPathText(x: string) { x != "" && '?' !in x && '#' !in x }

  /** What may follow a captured path: nothing, or a query or fragment. */
  predicate IsUrlTail(x: string) { x == "" || IsMark(x[0]) }

  /** `x` followed by a slash and `rest`. */
  function Seg(x: string, rest: string): string
  {
    x + "/" + rest
  }

  /** `t` matches the regular expression text `pat`, in which '.' stands for any
      character except a newline. */
  predicate WildMatches(t: string, pat: string)
  {
    |t| == |pat| && forall k :: 0 <= k < |t| ==> CharMatches(t[k], pat[k])
  }

  predicate CharMatches(c: char, p: char)
  {
    if p == '.' then c != '\n' else c == p
  }

  /** A captured text and the text after it. Matching at a position depends only on the
      text from that position on, so the matchers below work on that suffix. */
  datatype Cut = Cut(text: string, rest: string)

  /** A literal at the start of `t`; the text after it. */
  function Literal(t: string, lit: string): (r: Option<string>)
    ensures r.Some? <==> HasPrefix(t, lit)
    ensures r.Some? ==> t == lit + r.value
  {
    if HasPrefix(t, lit) then
      assert t == t[..|lit|] + t[|lit|..];
      Some(t[|lit|..])
    else None
  }

  /** A literal with wildcard dots at the start of `t`; the text after it. */
  function WildLiteral(t: string, pat: string): (r: Option<string>)
    ensures r.Some? <==> |pat| <= |t| && WildMatches(t[..|pat|], pat)
    ensures r.Some? ==> r.value == t[|pat|..]
  {
    if |pat| <= |t| && WildMatches(t[..|pat|], pat) then Some(t[|pat|..]) else None
  }

  /** Length of the longest prefix of `t` free of '/'. */
  function SegmentLength(t: string): (n: nat)
    ensures n <= |t|
    ensures forall k :: 0 <= k < n ==> t[k] != '/'
    ensures n == |t| || t[n] == '/'
  {
    if t == [] || t[0] == '/' then 0 else 1 + SegmentLength(t[1..])
  }

  /** Length of the longest prefix of `t` free of '?' and '#'. */
  function PathLength(t: string): (n: nat)
    ensures n <= |t|
    ensures forall k :: 0 <= k < n ==> !IsMark(t[k])
    ensures n == |t| || IsMark(t[n])
  {
    if t == [] || IsMark(t[0]) then 0 else 1 + PathLength(t[1..])
  }

  /** `([^/]+)/` at the start of `t`. Every such group in the four patterns is followed by
      a slash, so the greedy group ends exactly at the first slash. */
  function Segment(t: string): (r: Option<Cut>)
    ensures r.Some? ==> IsSegment(r.value.text) && t == Seg(r.value.text, r.value.rest)
  {
    var n := SegmentLength(t);
    if 0 < n < |t| then
      assert forall k :: 0 <= k < n ==> t[..n][k] == t[k];
      assert t == t[..n] + "/" + t[n + 1..];
      Some(Cut(t[..n], t[n + 1..]))
    else None
  }

  /** `([^\?#]+).*` at the start of `t`: the greedy group; the trailing `.*` always
      matches. */
  function Capture(t: string): (r: Option<string>)
    ensures r.Some? ==> IsPathText(r.value) && HasPrefix(t, r.value)
  {
    var n := PathLength(t);
    if 0 < n then
      assert forall k :: 0 <= k < n ==> t[..n][k] == t[k];
      Some(t[..n])
    else None
  }

  /** The three segments and the path that end three of the four patterns. */
  datatype Tail = Tail(first: string, second: string, third: string, path: string)

  /** `([^/]+)/([^/]+)/([^/]+)/([^\?#]+).*` at the start of `t`, the common end of the
      three absolute patterns. */
  function MatchTail(t: string): (r: Option<Tail>)
    ensures r.Some? ==> IsPathText(r.value.path)
  {
    var x :- Segment(t);
    var y :- Segment(x.rest);
    var z :- Segment(y.rest);
    var path :- Capture(z.rest);
    Some(Tail(x.text, y.text, z.text, path))
  }

  datatype Pattern = RawPrefixed | UserContent | AbsLink | Relative

  /** The four regular expressions of resource_link.go:25-28, at the start of `t`, a
      suffix of the URL text. */
  function MatchText(p: Pattern, u: Url, t: string): (r: Option<Resource>)
    ensures r.Some? ==> r.value.url == u && IsPathText(r.value.path)
    ensures r.Some? && p != Relative ==> HasPrefix(t, Https)
    ensures r.Some? && p == Relative ==> t != [] && !IsMark(t[0])
  {
    match p
    case RawPrefixed =>
      // https://([^/]+)/raw/ then the tail: owner, repo, ref, path
      var a :- Literal(t, Https);
      var host :- Segment(a);
      var b :- Literal(host.rest, "raw/");
      var tail :- MatchTail(b);
      Some(Resource(u, host.text, tail.first, tail.second, "raw", tail.third, tail.path))
    case UserContent =>
      // https://raw.githubusercontent.com/ then the tail: owner, repo, ref, path
      var a :- Literal(t, Https);
      var b :- WildLiteral(a, UserContentHost + "/");
      var tail :- MatchTail(b);
      Some(Resource(u, "github.com", tail.first, tail.second, "raw", tail.third, tail.path))
    case AbsLink =>
      // https://([^/]+)/([^/]+)/ then the tail: repo, type, ref, path
      var a :- Literal(t, Https);
      var host :- Segment(a);
      var owner :- Segment(host.rest);
      var tail :- MatchTail(owner.rest);
      Some(Resource(u, host.text, owner.text, tail.first, tail.second, tail.third, tail.path))
    case Relative =>
      // ([^\?#]+).*
      var path :- Capture(t);
      Some(Resource(u, "", "", "", "", "", path))
  }

  /** A match of `p` starting at position `i` of the URL text. */
  function MatchAt(p: Pattern, u: Url, i: nat): (r: Option<Resource>)
    requires i <= |u.text|
    ensures r.Some? ==> r.value.url == u && IsPathText(r.value.path)
    ensures r.Some? && p != Relative ==> OccursAt(u.text, Https, i)
    ensures r.Some? && p == Relative ==> i < |u.text| && !IsMark(u.text[i])
  {
    var r := MatchText(p, u, u.text[i..]);
    OccursAtSuffix(u.text, i, Https);
    r
  }

  /** The leftmost match of `p` starting at `i` or later (FindStringSubmatch). */
  function FindFrom(p: Pattern, u: Url, i: nat): (r: Option<Resource>)
    requires i <= |u.text|
    ensures r.Some? ==> r.value.url == u && IsPathText(r.value.path)
    decreases |u.text| - i
  {
    var m := MatchAt(p, u, i);
    if m.Some? then m
    else if i == |u.text| then None
    else FindFrom(p, u, i + 1)
  }

  function Find(p: Pattern, u: Url): Option<Resource>
  {
    FindFrom(p, u, 0)
  }

  /** NewResourceFromURL: the first pattern, in priority order, that matches anywhere in
      the URL decides the resource; when none does, the zero Resource. */
  function NewResourceFromURL(u: Url): (r: Resource)
    ensures r == ZeroResource || (r.url == u && IsPathText(r.path))
    ensures '?' !in r.path && '#' !in r.path
    ensures r == ZeroResource <==> forall k :: 0 <= k < |u.text| ==> IsMark(u.text[k])
  {
    var r :=
      if Find(RawPrefixed, u).Some? then Find(RawPrefixed, u).value
      else if Find(UserContent, u).Some? then Find(UserContent, u).value
      else if Find(AbsLink, u).Some? then Find(AbsLink, u).value
      else if Find(Relative, u).Some? then Find(Relative, u).value
      else ZeroResource;
    if forall k :: 0 <= k < |u.text| ==> IsMark(u.text[k]) then
      OnlyMarksNoMatch(RawPrefixed, u, 0);
      OnlyMarksNoMatch(UserContent, u, 0);
      OnlyMarksNoMatch(AbsLink, u, 0);
      OnlyMarksNoMatch(Relative, u, 0);
      r
    else
      var k :| 0 <= k < |u.text| && !IsMark(u.text[k]);
      RelativeFindsUnmarked(u, 0, k);
      r
  }

  /** NewResource: a url.Parse failure is returned as the error. */
  function NewResource(parsed: Result<Url, string>): (r: Result<Resource, string>)
    ensures parsed.Failure? ==> r == Failure(parsed.error)
    ensures parsed.Success? ==> r == Success(NewResourceFromURL(parsed.value))
  {
    var u :- parsed;
    Success(NewResourceFromURL(u))
  }

  /** GetResourceURL: https://Host/Owner/Repo/Type/Ref/Path */
  function GetResourceURL(r: Resource): string
  {
    Https + Seg(r.host, Seg(r.owner, Seg(r.repo, Seg(r.kind, Seg(r.ref, r.path)))))
  }

  /** GetRepoURL: https://Host/Owner/Repo */
  function GetRepoURL(r: Resource): string
  {
    Https + Seg(r.host, Seg(r.owner, r.repo))
  }

  /** The repository URL is the start of the resource and raw URLs, followed by
      /Type/Ref/Path and /raw/Ref/Path respectively. */
  lemma RepoURLPrefix(r: Resource)
    ensures GetResourceURL(r) == GetRepoURL(r) + "/" + r.kind + "/" + r.ref + "/" + r.path
    ensures GetRawURL(r) == GetRepoURL(r) + "/raw/" + r.ref + "/" + r.path
    ensures HasPrefix(GetResourceURL(r), GetRepoURL(r)) && HasPrefix(GetRawURL(r), GetRepoURL(r))
  {
  }

  /** GetRawURL: https://Host/Owner/Repo/raw/Ref/Path, whatever the Type. */
  function GetRawURL(r: Resource): string
  {
    Https + Seg(r.host, Seg(r.owner, Seg(r.repo, Seg("raw", Seg(r.ref, r.path)))))
  }

  // ---------------------------------------------------------------------------------------
  // Lemmas about the matchers

  lemma HttpsStartsWithH(t: string, i: nat)
    ensures OccursAt(t, Https, i) ==> i < |t| && t[i] == 'h'
  {
    if OccursAt(t, Https, i) {
      assert t[i..i + |Https|][0] == t[i];
    }
  }

  lemma {:induction false} OnlyMarksNoMatch(p: Pattern, u: Url, i: nat)
    requires i <= |u.text|
    requires forall k :: i <= k < |u.text| ==> IsMark(u.text[k])
    ensures FindFrom(p, u, i) == None
    decreases |u.text| - i
  {
    if i < |u.text| {
      // a match would start with "https://" or with a character that is not a mark
      HttpsStartsWithH(u.text, i);
      OnlyMarksNoMatch(p, u, i + 1);
    }
  }

  lemma {:induction false} RelativeFindsUnmarked(u: Url, i: nat, k: nat)
    requires i <= k < |u.text| && !IsMark(u.text[k])
    ensures FindFrom(Relative, u, i).Some?
    decreases k - i
  {
    if MatchAt(Relative, u, i).None? {
      if i < k {
        RelativeFindsUnmarked(u, i + 1, k);
      }
    }
  }

  // ---------------------------------------------------------------------------------------
  // Matching a URL piece by piece

  lemma {:induction false} SegmentLengthOf(x: string, rest: string)
    requires IsSegment(x)
    ensures SegmentLength(Seg(x, rest)) == |x|
    decreases |x|
  {
    var t := Seg(x, rest);
    assert t[0] == x[0];
    if |x| > 1 {
      assert t[1..] == Seg(x[1..], rest);
      assert x[1..] != [] && '/' !in x[1..] by {
        forall c | c in x[1..] ensures c in x { }
      }
      SegmentLengthOf(x[1..], rest);
    } else {
      assert t[1..] == "/" + rest;
    }
  }

  lemma {:induction false} PathLengthOf(path: string, rest: string)
    requires IsPathText(path) && IsUrlTail(rest)
    ensures PathLength(path + rest) == |path|
    decreases |path|
  {
    var t := path + rest;
    assert t[0] == path[0];
    if |path| > 1 {
      assert t[1..] == path[1..] + rest;
      assert '?' !in path[1..] && '#' !in path[1..] by {
        forall c | c in path[1..] ensures c in path { }
      }
      PathLengthOf(path[1..], rest);
    } else {
      assert t[1..] == rest;
    }
  }

  lemma SegmentOf(x: string, rest: string)
    requires IsSegment(x)
    ensures Segment(Seg(x, rest)) == Some(Cut(x, rest))
  {
    var t := Seg(x, rest);
    SegmentLengthOf(x, rest);
    assert t[..|x|] == x;
    assert t[|x| + 1..] == rest;
  }

  lemma CaptureOf(path: string, rest: string)
    requires IsPathText(path) && IsUrlTail(rest)
    ensures Capture(path + rest) == Some(path)
  {
    PathLengthOf(path, rest);
    assert (path + rest)[..|path|] == path;
  }

  lemma LiteralOf(lit: string, rest: string)
    ensures Literal(lit + rest, lit) == Some(rest)
  {
    assert (lit + rest)[..|lit|] == lit;
    assert (lit + rest)[|lit|..] == rest;
  }

  lemma OccursAtSuffix(s: string, i: nat, lit: string)
    requires i <= |s|
    ensures OccursAt(s, lit, i) <==> HasPrefix(s[i..], lit)
  {
    if i + |lit| <= |s| {
      assert s[i..][..|lit|] == s[i..i + |lit|];
    }
  }

  /** With no ':' after the scheme, "https://" occurs only at the start. */
  lemma NoHttpsAfterStart(s: string, t: string)
    requires s == Https + t && ':' !in t
    ensures forall k :: 1 <= k ==> !OccursAt(s, Https, k)
  {
    forall k | 1 <= k
      ensures !OccursAt(s, Https, k)
    {
      if k + 8 <= |s| {
        assert s[k..k + 8][5] == s[k + 5];
        if k + 5 >= 8 {
          assert s[k + 5] == t[k - 3];
        }
      }
    }
  }

  /** The three absolute patterns need "https://" where they start. */
  lemma {:induction false} NoLaterMatch(p: Pattern, u: Url, i: nat)
    requires p != Relative && i <= |u.text|
    requires forall k :: i <= k ==> !OccursAt(u.text, Https, k)
    ensures FindFrom(p, u, i) == None
    decreases |u.text| - i
  {
    if i < |u.text| {
      NoLaterMatch(p, u, i + 1);
    }
  }

  /** "/raw/" follows the host only when the owner segment is "raw". */
  lemma NotRawAfterHost(owner: string, t: string)
    requires IsSegment(owner) && owner != "raw"
    ensures !HasPrefix(owner + "/" + t, "raw/")
  {
    var x := owner + "/" + t;
    assert x[|owner|] == '/';
    if |owner| >= 4 {
      assert x[3] == owner[3] && owner[3] in owner;
    } else if |owner| == 3 {
      assert x[..3] == owner;
    }
  }

  /** The host lengths at which the githubusercontent pattern can meet the slash after
      the host: where the pattern has a wildcard dot, or its own slash. */
  predicate UserContentHostPrefix(h: string)
  {
    (|h| == 3 || |h| == 21 || |h| == 25) && WildMatches(h, UserContentHost[..|h|])
  }

  lemma PatternSeparators(L: nat)
    requires L < 26
    ensures var pat := UserContentHost + "/";
      pat[L] == '.' || pat[L] == '/' ==> L == 3 || L == 21 || L == 25
  {
    var pat := UserContentHost + "/";
    if L < 3 {
      assert pat[L] == "raw"[L] && "raw"[L] in "raw";
    } else if 3 < L < 21 {
      assert pat[L] == "githubusercontent"[L - 4] && "githubusercontent"[L - 4] in "githubusercontent";
    } else if 21 < L < 25 {
      assert pat[L] == "com"[L - 22] && "com"[L - 22] in "com";
    }
  }

  lemma NotUserContentAfterScheme(host: string, t: string)
    requires IsSegment(host) && !UserContentHostPrefix(host)
    ensures WildLiteral(Seg(host, t), UserContentHost + "/") == None
  {
    var x := Seg(host, t);
    var pat := UserContentHost + "/";
    var L := |host|;
    if 26 <= |x| {
      var w := x[..26];
      if L >= 26 {
        assert w[25] == host[25] && host[25] in host;
        assert !CharMatches(w[25], pat[25]);
      } else {
        PatternSeparators(L);
        if L == 3 || L == 21 || L == 25 {
          var k :| 0 <= k < L && !CharMatches(host[k], UserContentHost[..L][k]);
          assert host[k] == w[k] && UserContentHost[..L][k] == pat[k];
          assert !CharMatches(w[k], pat[k]);
        } else {
          assert w[L] == x[L] == '/';
          assert !CharMatches(w[L], pat[L]);
        }
      }
    }
  }

  // ---------------------------------------------------------------------------------------
  // Each pattern on a URL text of its own shape

  lemma TailOf(x: string, y: string, z: string, path: string, rest: string)
    requires IsSegment(x) && IsSegment(y) && IsSegment(z) && IsPathText(path) && IsUrlTail(rest)
    ensures MatchTail(Seg(x, Seg(y, Seg(z, path + rest)))) == Some(Tail(x, y, z, path))
  {
    SegmentOf(x, Seg(y, Seg(z, path + rest)));
    SegmentOf(y, Seg(z, path + rest));
    SegmentOf(z, path + rest);
    CaptureOf(path, rest);
  }

  lemma RawPrefixedOf(u: Url, host: string, owner: string, repo: string, ref: string,
                      path: string, rest: string)
    requires IsSegment(host) && IsSegment(owner) && IsSegment(repo) && IsSegment(ref)
    requires IsPathText(path) && IsUrlTail(rest)
    ensures MatchText(RawPrefixed, u, Https + Seg(host, Seg("raw", Seg(owner, Seg(repo, Seg(ref, path + rest))))))
         == Some(Resource(u, host, owner, repo, "raw", ref, path))
  {
    var t := Seg(owner, Seg(repo, Seg(ref, path + rest)));
    LiteralOf(Https, Seg(host, Seg("raw", t)));
    SegmentOf(host, Seg("raw", t));
    assert Seg("raw", t) == "raw/" + t;
    LiteralOf("raw/", t);
    TailOf(owner, repo, ref, path, rest);
  }

  lemma UserContentOf(u: Url, host: string, owner: string, repo: string, ref: string,
                      path: string, rest: string)
    requires WildMatches(host, UserContentHost)
    requires IsSegment(owner) && IsSegment(repo) && IsSegment(ref)
    requires IsPathText(path) && IsUrlTail(rest)
    ensures MatchText(UserContent, u, Https + Seg(host, Seg(owner, Seg(repo, Seg(ref, path + rest)))))
         == Some(Resource(u, "github.com", owner, repo, "raw", ref, path))
  {
    var t := Seg(owner, Seg(repo, Seg(ref, path + rest)));
    var pat := UserContentHost + "/";
    var x := Seg(host, t);
    LiteralOf(Https, x);
    assert x[..26] == host + "/";
    forall k | 0 <= k < 26
      ensures CharMatches(x[..26][k], pat[k])
    {
      if k < 25 {
        assert x[..26][k] == host[k] && pat[k] == UserContentHost[k];
      }
    }
    assert x[26..] == t;
    TailOf(owner, repo, ref, path, rest);
  }

  lemma AbsLinkOf(u: Url, host: string, owner: string, repo: string, kind: string,
                  ref: string, path: string, rest: string)
    requires IsSegment(host) && IsSegment(owner) && IsSegment(repo) && IsSegment(kind) && IsSegment(ref)
    requires IsPathText(path) && IsUrlTail(rest)
    ensures MatchText(AbsLink, u, Https + Seg(host, Seg(owner, Seg(repo, Seg(kind, Seg(ref, path + rest))))))
         == Some(Resource(u, host, owner, repo, kind, ref, path))
  {
    var t := Seg(repo, Seg(kind, Seg(ref, path + rest)));
    LiteralOf(Https, Seg(host, Seg(owner, t)));
    SegmentOf(host, Seg(owner, t));
    SegmentOf(owner, t);
    TailOf(repo, kind, ref, path, rest);
  }

  // ---------------------------------------------------------------------------------------
  // What NewResourceFromURL makes of whole URLs

  /** A resource whose printed URL parses back to it: every field a `[^/]+` segment and the
      path a `[^?#]+` text, no ':' that could start a second "https://", an owner other
      than "raw" (which the raw-prefixed pattern would take for its marker) and a host the
      githubusercontent pattern cannot run over. */
  predicate PrintsBack(r: Resource)
  {
    && IsSegment(r.host) && IsSegment(r.owner) && IsSegment(r.repo)
    && IsSegment(r.kind) && IsSegment(r.ref) && IsPathText(r.path)
    && ':' !in r.host && ':' !in r.owner && ':' !in r.repo
    && ':' !in r.kind && ':' !in r.ref && ':' !in r.path
    && r.owner != "raw" && !UserContentHostPrefix(r.host)
  }

  lemma SegAppend(x: string, y: string, z: string)
    ensures Seg(x, y) + z == Seg(x, y + z)
  {
  }

  lemma ResourceText(r: Resource, tail: string)
    ensures GetResourceURL(r) + tail
         == Https + Seg(r.host, Seg(r.owner, Seg(r.repo, Seg(r.kind, Seg(r.ref, r.path + tail)))))
  {
    SegAppend(r.ref, r.path, tail);
    SegAppend(r.kind, Seg(r.ref, r.path), tail);
    SegAppend(r.repo, Seg(r.kind, Seg(r.ref, r.path)), tail);
    SegAppend(r.owner, Seg(r.repo, Seg(r.kind, Seg(r.ref, r.path))), tail);
    SegAppend(r.host, Seg(r.owner, Seg(r.repo, Seg(r.kind, Seg(r.ref, r.path)))), tail);
  }

  /** GetResourceURL and NewResourceFromURL are inverse: a URL printed from a resource,
      followed by a query or fragment, is parsed back into the same fields. */
  lemma {:induction false} ResourceURLRoundTrip(u: Url, r: Resource, tail: string)
    requires PrintsBack(r) && IsUrlTail(tail) && ':' !in tail
    requires u.text == GetResourceURL(r) + tail
    ensures NewResourceFromURL(u) == r.(url := u)
  {
    var t1 := Seg(r.owner, Seg(r.repo, Seg(r.kind, Seg(r.ref, r.path + tail))));
    var t := Seg(r.host, t1);
    ResourceText(r, tail);
    assert u.text[0..] == u.text == Https + t;
    NoHttpsAfterStart(u.text, t);
    LiteralOf(Https, t);
    // the raw-prefixed pattern: the host is followed by the owner, not by "raw/"
    SegmentOf(r.host, t1);
    NotRawAfterHost(r.owner, Seg(r.repo, Seg(r.kind, Seg(r.ref, r.path + tail))));
    assert MatchAt(RawPrefixed, u, 0) == None;
    NoLaterMatch(RawPrefixed, u, 1);
    // the githubusercontent pattern: the host does not fit its literal
    NotUserContentAfterScheme(r.host, t1);
    assert MatchAt(UserContent, u, 0) == None;
    NoLaterMatch(UserContent, u, 1);
    AbsLinkOf(u, r.host, r.owner, r.repo, r.kind, r.ref, r.path, tail);
  }

  /** GetRawURL prints a URL that parses back with the type "raw". */
  lemma RawURLRoundTrip(u: Url, r: Resource, tail: string)
    requires PrintsBack(r.(kind := "raw")) && IsUrlTail(tail) && ':' !in tail
    requires u.text == GetRawURL(r) + tail
    ensures NewResourceFromURL(u) == r.(url := u, kind := "raw")
  {
    assert GetRawURL(r) == GetResourceURL(r.(kind := "raw"));
    ResourceURLRoundTrip(u, r.(kind := "raw"), tail);
  }

  /** A URL with "raw" right after the host takes the raw-prefixed pattern, whatever
      follows. */
  lemma RawPrefixedURL(u: Url, host: string, owner: string, repo: string, ref: string,
                       path: string, tail: string)
    requires IsSegment(host) && IsSegment(owner) && IsSegment(repo) && IsSegment(ref)
    requires IsPathText(path) && IsUrlTail(tail)
    requires u.text == Https + Seg(host, Seg("raw", Seg(owner, Seg(repo, Seg(ref, path + tail)))))
    ensures NewResourceFromURL(u) == Resource(u, host, owner, repo, "raw", ref, path)
  {
    assert u.text[0..] == u.text;
    RawPrefixedOf(u, host, owner, repo, ref, path, tail);
  }

  /** A raw.githubusercontent.com URL names a raw file on github.com. The dots of the
      pattern are wildcards, so any host that matches them counts. */
  lemma {:induction false} UserContentURL(u: Url, host: string, owner: string, repo: string,
                                          ref: string, path: string, tail: string)
    requires WildMatches(host, UserContentHost) && IsSegment(host) && ':' !in host
    requires IsSegment(owner) && IsSegment(repo) && IsSegment(ref) && IsPathText(path)
    requires ':' !in owner && ':' !in repo && ':' !in ref && ':' !in path && ':' !in tail
    requires owner != "raw" && IsUrlTail(tail)
    requires u.text == Https + Seg(host, Seg(owner, Seg(repo, Seg(ref, path + tail))))
    ensures NewResourceFromURL(u) == Resource(u, "github.com", owner, repo, "raw", ref, path)
  {
    var t1 := Seg(owner, Seg(repo, Seg(ref, path + tail)));
    var t := Seg(host, t1);
    assert u.text[0..] == u.text;
    NoHttpsAfterStart(u.text, t);
    LiteralOf(Https, t);
    SegmentOf(host, t1);
    NotRawAfterHost(owner, Seg(repo, Seg(ref, path + tail)));
    assert MatchAt(RawPrefixed, u, 0) == None;
    NoLaterMatch(RawPrefixed, u, 1);
    UserContentOf(u, host, owner, repo, ref, path, tail);
  }

  /** Leading marks start no relative match: the search moves on past them. */
  lemma {:induction false} SkipMarks(u: Url, i: nat, j: nat)
    requires i <= j <= |u.text|
    requires forall k :: i <= k < j ==> IsMark(u.text[k])
    ensures FindFrom(Relative, u, i) == FindFrom(Relative, u, j)
    decreases j - i
  {
    if i < j {
      SkipMarks(u, i + 1, j);
    }
  }

  /** A URL without "https://" anywhere is a relative link: its path is the first run of
      characters other than '?' and '#', so the marks in front of it are skipped
      ("#frag" has the path "frag"). */
  lemma RelativeURL(u: Url, marks: string, path: string, tail: string)
    requires forall k :: !OccursAt(u.text, Https, k)
    requires forall k :: 0 <= k < |marks| ==> IsMark(marks[k])
    requires IsPathText(path) && IsUrlTail(tail) && u.text == marks + path + tail
    ensures NewResourceFromURL(u) == Resource(u, "", "", "", "", "", path)
  {
    NoLaterMatch(RawPrefixed, u, 0);
    NoLaterMatch(UserContent, u, 0);
    NoLaterMatch(AbsLink, u, 0);
    assert forall k :: 0 <= k < |marks| ==> u.text[k] == marks[k];
    SkipMarks(u, 0, |marks|);
    assert u.text[|marks|..] == path + tail;
    CaptureOf(path, tail);
  }
}

=== FILE: wrappers.dfy ===
/** Option and Result, the two failure-compatible wrappers the model uses for Go's
    nil results and (value, error) pairs. */
module Wrappers {

  datatype Option<+T> = None | Some(value: T) {
    predicate IsFailure() { None? }

    function PropagateFailure<U>(): Option<U>
      requires None?
    {
      None
    }

    function Extract(): T
      requires Some?
    {
      value
    }
  }

  datatype Result<+R, +E> = Success(value: R) | Failure(error: E) {
    predicate IsFailure() { Failure? }

    function PropagateFailure<U>(): Result<U, E>
      requires Failure?
    {
      Failure(error)
    }

    function Extract(): R
      requires Success?
    {
      value
    }
  }
}
